=== FILE: README.md ===
# HNxVoiceCommand: command grammar and recogniser, modelled in Dafny

HNxVoiceCommand is a voice-activated command launcher. It listens for a
hotword, then for a spoken phrase bound to a program, and starts that
program. This project models the part that keeps the vocabulary of phrases
and drives the listening cycle:

- `HNx::Command` (Command.h), a phrase with its program and argument
  string, is module `Commands`.
- `HNx::CommandGroup` (CommandGroup.h, CommandGroup.cpp), an ordered
  vocabulary bound to one rule of a recognition grammar, is module
  `CommandGroups`.
- The string helpers of Util.h are module `Util`.
- The older `Command` of Recog.hpp, which splits one command line into
  program and arguments, is module `RecogCommands`.
- The `std::map<std::string, Command>` that `Recog` keeps is module
  `CommandMap`. It is a sequence of entries with strictly ascending keys,
  and `AsMap` gives the map it stands for.
- The `Recog` class of Recog.hpp is module `Recognizer`. It covers the
  pause counter, initialisation, both `AddString` overloads, `GetStrings`,
  `remove_by_phrase`, `remove_by_command`, `refresh_rules` and one
  iteration of the event loop.

The speech engine is not modelled. Each operation that calls the engine
takes a budget, `accepted`: the number of engine calls that succeed before
the first one fails. Every operation here stops at its first failed call,
so ranging over all budgets covers every engine behaviour. An operation
that can throw after it has changed state returns the new state together
with a flag saying whether it threw (`Outcome` for a group, `Step` for the
recogniser).

The map the recogniser keeps holds the commands that its line splitter
produces. The splitter of Recog.hpp keeps the separating space in the
arguments (see "## Findings"). So every recogniser operation that splits a
command line takes a `Recognizer.Splitter`: `AsWritten` is the code, and
`Corrected` is the program with the splitter as evidently intended. The
lemmas name the splitter they speak about.

`Recognizer.Valid` is the invariant of a reachable recogniser, whichever
the splitter:

- the pause count is not negative;
- the watchdog counter is below five;
- the entries are sorted;
- commands exist only after initialisation.

Every operation preserves `Valid`. With the corrected splitter every
operation also preserves `Recognizer.Stable`: every stored command survives
a round trip through its own command line. With the splitter as written no
stored command with arguments does, and each `refresh_rules` that does not
throw rewrites them all.

Notes on the code:

- `HNx::Command`'s `==` compares all three fields, case-sensitively
  (Command.h:196-201).
- `update_grammar` never calls `Commit` (CommandGroup.cpp:215-266).
- A failed `addCommand` can leave the rule holding a word that the group
  never stored (CommandGroup.cpp:150-167). `CommandGroups.FailedCommitDesyncs`
  shows this. The words handed to the rule, committed or not, agree with the
  vocabulary only after a call that succeeds.
- The event loop compares the recognised text with the hotword exactly and
  case-sensitively (Recog.hpp:534).
- The loop looks up an unknown phrase with `operator[]`, which stores an
  empty command under that phrase (Recog.hpp:555).
- The command watchdog counts one-second timeouts into a counter. Only the
  watchdog itself resets that counter, or a timeout outside command mode
  (Recog.hpp:507-524). No clock is kept.
- `Recog` uses one grammar with two rules, "HotWord" and "Commands".

## Model

| member | source | states |
|---|---|---|
| Util.FindFirstNotSpace | Util.h:12-14 | no position exactly when every character is a space; otherwise the position of the first non-space, with only spaces before it |
| Util.FindLastNotSpace | Util.h:15 | no position exactly when every character is a space; otherwise the position of the last non-space, with only spaces after it |
| Util.TrimWhitespace | Util.h:9-17 | the result is empty exactly when the input is all spaces; otherwise it starts and ends with a non-space; the input is some spaces, then the result, then some spaces |
| Util.TrimOfTrimmed | Util.h:9-17 | a string that neither starts nor ends with a space is its own trim |
| Util.TrimIdempotent | Util.h:9-17 | trimming twice is trimming once |
| Util.TrimKeepsNonSpaces | Util.h:7-17 | only the space character is removed: every other character (tab, newline) occurs as often in the result as in the input |
| Util.Lower | Util.h:22 | the result is never an upper-case ASCII letter, and it is the input or the input's lower-case letter |
| Util.IcaseCmpIsEquivalence | Util.h:20-23 | `icase_cmp_wchar` is reflexive, symmetric and transitive |
| Util.IcaseCmpCharacterised | Util.h:20-23 | two characters match exactly when they are equal or are the two cases of one ASCII letter |
| Util.EqualIgnoringCaseIsEquivalence | CommandGroup.cpp:127-130 | the phrase comparison (same length, `std::equal` under `icase_cmp_wchar`) is an equivalence relation |
| Commands.Default | Command.h:208-215 | the default command has empty phrase, program and arguments, and an empty command line |
| Commands.Make | Command.h:45-51 | the constructor stores phrase, program and arguments as given |
| Commands.MakeWithoutParam | Command.h:45-51 | leaving out the arguments is the same as passing an empty string, and the command line is then the program alone |
| Commands.ComposeCmdline | Command.h:180-193 | the command line is empty exactly when the program is; it starts with the program; it is longer than the program exactly when there are arguments, and then one space separates them |
| Commands.Cmdline | Command.h:180-193 | a command's command line is empty exactly when it has no program |
| Commands.CmdlineOfEmptyExec | Command.h:180-193 | with no program, the command line is empty whatever the arguments |
| Commands.CmdlineWithExec | Command.h:180-193 | with a program, the command line is the program alone, or program, one space, arguments |
| Commands.EqIsValueEquality | Command.h:196-206 | `==` holds exactly for equal values, so it is symmetric, and `!=` is its exact negation |
| Commands.EqIsCaseSensitive | Command.h:196-201 | for every phrase that equals a command's phrase ignoring case but differs from it, the command with that phrase is not `==` to the original |
| Commands.SetPhrase | Command.h:163-166 | sets the phrase and keeps program and arguments |
| Commands.SetExec | Command.h:168-171 | sets the program and keeps phrase and arguments |
| Commands.SetParam | Command.h:173-176 | sets the arguments and keeps phrase and program |
| Commands.SettersBuildCommand | Command.h:163-176 | setting the three fields in any order builds the command the constructor builds, and a later write to a field overrides an earlier one |
| Commands.MoveAssign | Command.h:34-43 | move assignment swaps: the target ends `==` to the source, the source `==` to the target |
| RecogCommands.Empty | Recog.hpp:71-74 | the default command has no program, no arguments and an empty command line |
| RecogCommands.Cmdline | Recog.hpp:148-161 | the command line is empty exactly when the program is |
| RecogCommands.Lead | Recog.hpp:96-103 | the splitter skips exactly the leading spaces, stopping at the first non-space or the end |
| RecogCommands.SplitPoint | Recog.hpp:104-110 | the scan stops at the first space read outside double quotes, or at the end |
| RecogCommands.ParseAsWrittenShape | Recog.hpp:87-112 | as written, the arguments start with the separating space; there is no program exactly when the line is all spaces; a program starts with a non-space |
| RecogCommands.ParseAsWrittenSplits | Recog.hpp:87-112 | as written, program and arguments together are the command line without its leading spaces |
| RecogCommands.ParseDropsSeparator | Recog.hpp:87-112 | the corrected splitter gives the same program and drops only the separating space from the arguments; with no program there are no arguments |
| RecogCommands.ParseRebuildsLine | Recog.hpp:87-112 | the command line without its leading spaces is the split program alone, or program, one space, arguments |
| RecogCommands.ScanFacts | Recog.hpp:104-110 | a scan from a non-space gives a program that starts with a non-space, contains no space outside quotes, and has its quotes closed when the scan stopped at a space |
| RecogCommands.ParseIsScan | Recog.hpp:95-110 | the split program is what the scan of the command line, after its leading spaces, runs through |
| RecogCommands.ParseFacts | Recog.hpp:87-112 | every result of the corrected splitter survives the round trip through its command line |
| RecogCommands.ParseClosesQuotes | Recog.hpp:87-112 | when the written splitter leaves any arguments, even a lone space, the program is not empty and closes its quotes |
| RecogCommands.ParseOfCmdline | Recog.hpp:87-161 | splitting the command line of a command that survives the round trip gives that command back |
| RecogCommands.ParseAsWrittenOfCmdline | Recog.hpp:87-161 | as written, splitting the command line of a command that survives the corrected round trip gives back its program, and its arguments with one more space in front |
| RecogCommands.ParseCmdlineIff | Recog.hpp:87-161 | splitting a command's command line gives it back exactly when it survives the round trip |
| RecogCommands.ParseIdempotent | Recog.hpp:87-161 | splitting the command line of a split command changes nothing |
| RecogCommands.ParseAsWrittenReparseGrows | Recog.hpp:87-161 | as written, re-splitting the command line of a split command with arguments adds one more leading space to the arguments |
| RecogCommands.ParseAsWrittenCounterexample | Recog.hpp:111 | "prog arg" splits into "prog" and " arg", and re-splitting its command line gives "  arg" |
| RecogCommands.NeqAsWrittenIsNotNegation | Recog.hpp:170-178 | the written `!=` implies not `==`, but two commands with the same program and different arguments are neither `==` nor `!=` |
| RecogCommands.NeqIsNegation | Recog.hpp:170-178 | the corrected `!=` is exactly the negation of `==`, and `==` is value equality |
| CommandMap.LessIrreflexive | Recog.hpp:439 | no key is ordered before itself |
| CommandMap.LessTransitive | Recog.hpp:439 | the string ordering of the map is transitive |
| CommandMap.LessTotal | Recog.hpp:439 | any two different keys are ordered one way or the other |
| CommandMap.LessAsymmetric | Recog.hpp:439 | two keys are never ordered both ways |
| CommandMap.AsMap | Recog.hpp:439 | the map's keys are the keys of the entries |
| CommandMap.AsMapAt | Recog.hpp:439 | in sorted entries, the map holds each entry's value under its key |
| CommandMap.Insert | Recog.hpp:331 | `m[k] = v` adds `k` to the keys and stores no entry other than the old ones and the new one |
| CommandMap.InsertSorted | Recog.hpp:331 | writing to a key keeps the entries sorted |
| CommandMap.InsertAsMap | Recog.hpp:331 | writing `v` at `k` is the map update `m[k := v]` |
| CommandMap.InsertExisting | Recog.hpp:578-581 | writing to a key that is present replaces that one entry in place |
| CommandMap.Erase | Recog.hpp:401 | erasing removes exactly the key, adds no entry and never lengthens the sequence |
| CommandMap.EraseSorted | Recog.hpp:401 | erasing keeps the entries sorted |
| CommandMap.EraseAsMap | Recog.hpp:401 | erasing from sorted entries is map removal |
| CommandMap.IndexOf | Recog.hpp:555 | the position of the key's entry, or the length exactly when the key is absent |
| CommandGroups.DefaultGroup | CommandGroup.cpp:21-22 | the default group has no grammar, rule id 0, no commands, no state handle and state Unknown, and nothing committed |
| CommandGroups.Create | CommandGroup.cpp:24-56 | a null context or a zero id throws `invalid_argument` before any engine call; otherwise the group exists exactly when all five engine calls succeed, and is then Inactive and empty with the given name and id, its rule and committed rule empty |
| CommandGroups.Activate | CommandGroup.cpp:101-110 | throws exactly when the engine call fails, and then changes nothing; otherwise only the state changes, to Active |
| CommandGroups.Deactivate | CommandGroup.cpp:112-121 | throws exactly when the engine call fails, and then changes nothing; otherwise only the state changes, to Inactive |
| CommandGroups.FindPhrase | CommandGroup.cpp:127-130 | no match exactly when no stored phrase equals the phrase ignoring case; otherwise the first matching position |
| CommandGroups.EqualOverSpanAsWritten | CommandGroup.cpp:127-130 | the comparison as written, over a range whose length the code does not fix, is the case-insensitive equality when the range covers the phrase; over a shorter range "alpha" and "omega" compare equal |
| CommandGroups.AddCommand | CommandGroup.cpp:123-175 | a phrase present ignoring case changes nothing; otherwise the command is appended exactly when the engine chain before re-activation succeeds; the call does not throw exactly when every call succeeds; distinct phrases stay distinct; after a success both the rule and the committed rule agree with the vocabulary |
| CommandGroups.UpdateGrammar | CommandGroup.cpp:215-266 | the vocabulary never changes; it does not throw exactly when all calls succeed, and the rule then holds exactly the stored phrases; a failure part-way leaves the rule holding a prefix of them; the state handle exists afterwards exactly when CreateNewState was reached and succeeded, even when the call throws; as written the committed rule never changes, and with the Commit added a success commits the stored phrases |
| CommandGroups.RemoveCommand | CommandGroup.cpp:177-194 | an empty or unknown phrase changes nothing; otherwise the first match is erased even when the rebuild then throws, and a successful rebuild leaves the uncommitted rule and the vocabulary in agreement; as written the committed rule is untouched, and with the Commit added a success keeps it in agreement with the vocabulary |
| CommandGroups.GetWords | CommandGroup.cpp:196-203 | the stored phrases, one per command, in stored order |
| CommandGroups.GetCommandByPhrase | CommandGroup.cpp:205-213 | the first command whose phrase matches ignoring case, or the default command with an empty program |
| CommandGroups.MoveAssign | CommandGroup.cpp:83-99 | the target takes over the source; the source is left without grammar, with rule id 0, state Unknown and the target's former name and commands, so no command is lost or duplicated |
| CommandGroups.WordsLookupAgree | CommandGroup.cpp:196-213 | with distinct phrases, looking up any listed phrase finds exactly the command stored under it |
| CommandGroups.AddThenLookup | CommandGroup.cpp:123-213 | after a successful add, every phrase equal to the new one ignoring case looks up the new command |
| CommandGroups.AddCaseVariantsOnce | CommandGroup.cpp:126-130 | of two phrases that differ only in case, at most one is stored |
| CommandGroups.RemoveThenMissing | CommandGroup.cpp:177-194 | after a remove, the phrase matches nothing, even when the rebuild failed |
| CommandGroups.RemoveLeavesPhraseCommitted | CommandGroup.cpp:177-194 | as written, removing a phrase from a group whose committed rule agrees with it leaves the committed rule as it was, so the engine still recognises the removed phrase and the committed rule no longer agrees with the vocabulary |
| CommandGroups.RemoveRecommitForgetsPhrase | CommandGroup.cpp:215-266 | with the Commit added to the rebuild, a successful remove leaves the committed rule equal to the remaining phrases, none of which equals the removed one ignoring case |
| CommandGroups.FailedCommitDesyncs | CommandGroup.cpp:150-167 | when the word is added and the commit fails, the call throws, the vocabulary and the committed rule are unchanged, and the uncommitted rule no longer agrees with the vocabulary |
| Recognizer.New | Recog.hpp:196-241 | a new recogniser is paused once, uninitialised, not listening, has no commands, and satisfies the invariant and stability |
| Recognizer.Initialize | Recog.hpp:367-378 | the first call starts the loop and undoes one outstanding pause; later calls change nothing; the invariant is kept |
| Recognizer.Pause | Recog.hpp:275-281 | initialises on first use, then counts one more pause |
| Recognizer.Resume | Recog.hpp:283-292 | initialises on first use, then undoes one outstanding pause; with none outstanding it changes nothing |
| Recognizer.FirstUseUndoesConstructorPause | Recog.hpp:275-292 | the first operation on a new recogniser undoes the constructor's pause |
| Recognizer.PauseTimesCount | Recog.hpp:275-281 | `n` pauses raise the count by `n` |
| Recognizer.ResumeTimesCount | Recog.hpp:283-292 | `n` resumes lower the count by `n`, never below zero |
| Recognizer.PauseResumeBalanced | Recog.hpp:275-292 | `n` pauses then `n` resumes restore the count, and surplus resumes leave it at zero |
| Recognizer.InsertParsed | Recog.hpp:330-331 | storing what a splitter gives for a command line is a map update that keeps the entries sorted; with the corrected splitter every command stays stable |
| Recognizer.AddString | Recog.hpp:316-333 | initialises first; an empty phrase or command line stops there; otherwise it throws exactly when one of the five engine calls fails, and on success the phrase maps to the splitter's split of the command line, which as written keeps the separating space in the arguments; the invariant is kept, and stability with the corrected splitter |
| Recognizer.AddStringParts | Recog.hpp:335-349 | an empty program or phrase does nothing, not even initialisation; otherwise it adds program, one space, arguments as a command line, and the phrase maps to the splitter's split of that line |
| Recognizer.SplitParts | Recog.hpp:87-112 | for a program and arguments the splitter can tell apart, splitting their joined command line gives them back with the corrected splitter; as written the arguments gain a leading space, so the command line shows program and arguments two spaces apart |
| Recognizer.AddStringPartsStoresCommand | Recog.hpp:335-365 | a program and arguments that the splitter can tell apart are stored as given with the corrected splitter, and with one more space in front of the arguments as written; the phrase is listed with the command line of what was stored |
| Recognizer.ListStringsAt | Recog.hpp:355-365 | entry `i` is listed at positions `2i` (phrase) and `2i+1` (command line) |
| Recognizer.GetStrings | Recog.hpp:355-365 | two strings per stored phrase |
| Recognizer.GetStringsListsMap | Recog.hpp:351-365 | the listing shows exactly the map: every phrase once, ascending, each followed by its command's command line |
| Recognizer.ReaddAll | Recog.hpp:578-581 | the re-add loop leaves as many entries as it found |
| Recognizer.ReaddAllKeys | Recog.hpp:578-581 | the re-add loop keeps every phrase in its place |
| Recognizer.ReaddAllThrows | Recog.hpp:578-581 | the loop throws exactly when the budget does not cover five calls per re-added entry |
| Recognizer.ReaddAllComplete | Recog.hpp:578-581 | when the loop does not throw, every entry that `AddString` accepts holds the splitter's split of its own command line, and every other entry is as it was |
| Recognizer.ReaddAllStable | Recog.hpp:578-581 | with the corrected splitter, the loop changes no stable entry |
| Recognizer.RefreshRules | Recog.hpp:563-582 | whichever the splitter, only the commands can change, and every phrase stays where it was |
| Recognizer.RefreshRulesThrows | Recog.hpp:563-582 | the refresh throws exactly when the budget does not cover its eleven set-up calls and the re-adds |
| Recognizer.RefreshRulesComplete | Recog.hpp:563-582 | after a refresh that does not throw, every command with a phrase and a command line holds the splitter's split of its own command line, and every other entry is as it was |
| Recognizer.RefreshRulesStable | Recog.hpp:563-582 | with the corrected splitter and stable commands the refresh changes nothing, whether or not it throws |
| Recognizer.RefreshRulesUnchanged | Recog.hpp:563-582 | a re-add loop that changes nothing makes a refresh that changes nothing |
| Recognizer.RefreshAsWrittenGrows | Recog.hpp:563-582 | with the splitter as written, a refresh that does not throw gives every command the splitter stored with arguments one more space in front of them |
| Recognizer.RemoveByPhrase | Recog.hpp:394-406 | an absent phrase changes nothing; otherwise the phrase is erased even if the refresh throws, which it does exactly when the budget runs short; the other phrases stay and the invariant is kept; with the corrected splitter on a stable state the map loses just that phrase |
| Recognizer.RemoveByPhraseReadds | Recog.hpp:394-406 | on a valid state, after a removal whose refresh does not throw, every other phrase holds the splitter's split of its old command line, or its old command when the re-add skipped it |
| Recognizer.RemoveByPhraseAsWrittenGrows | Recog.hpp:394-406 | with the splitter as written, removing one phrase gives every other phrase whose stored command has arguments one more space in front of them |
| Recognizer.EraseThenRefresh | Recog.hpp:394-406 | refreshing after an erase keeps the remaining phrases and the invariant; with the corrected splitter on a stable state it keeps the remaining commands too |
| Recognizer.AddThenRemove | Recog.hpp:316-406 | adding a new phrase and then removing it leaves the phrases as they were; with the corrected splitter on a stable state it leaves the map as it was |
| Recognizer.FindCommand | Recog.hpp:411-414 | the first position holding a command `==` to the given one, or the length |
| Recognizer.RemoveByCommand | Recog.hpp:408-421 | a command line whose split is not stored changes nothing; the invariant is kept, and stability with the corrected splitter |
| Recognizer.RemoveByCommandErasesFirstMatch | Recog.hpp:408-421 | on a valid state, the phrase erased is the least phrase mapped to the split command line and every other phrase stays; with the corrected splitter on a stable state every other phrase keeps its command |
| Recognizer.FirstMatchIsLeast | Recog.hpp:411-416 | in sorted entries, the first entry holding a command has the least phrase among those holding it |
| Recognizer.RemoveListedAsWrittenMisses | Recog.hpp:408-421 | with the splitter as written, removing by the command line `GetStrings` lists for a phrase whose command has arguments never removes that phrase |
| Recognizer.RemoveListedCorrectedErases | Recog.hpp:408-421 | with the corrected splitter on a stable state, removing by the command line listed for a phrase erases the least phrase holding the same command, so that phrase itself when no other holds it |
| Recognizer.EventStep | Recog.hpp:488-561 | the loop ends exactly when it is told to stop or hears the shutdown phrase (and that is not the hotword); the hotword switches to command mode, keeps the commands and launches nothing, and only it or a timeout in command mode leaves the loop in command mode; a timeout changes no command and launches nothing, and outside command mode resets the watchdog counter; any other phrase returns to hotword mode, stores an empty command if the phrase is unknown, and launches its command exactly when it has a program; no recognised phrase touches the watchdog counter; the invariant and stability are kept |
| Recognizer.Timeouts | Recog.hpp:499-526 | any number of timeouts keeps the loop running and keeps the invariant |
| Recognizer.WatchdogFallsBack | Recog.hpp:507-519 | in command mode the loop falls back to hotword mode after the seconds left of the five, and not before |
| Recognizer.HotwordKeepsWatchdogCount | Recog.hpp:507-541 | hearing the hotword again in command mode leaves the seconds already waited, so the watchdog falls back after exactly the seconds left of the five, and not before |
| Recognizer.HotwordThenCommand | Recog.hpp:534-558 | the hotword followed by a known phrase launches that phrase's command, returns to hotword mode and leaves the map as it was |
| Recognizer.ShutdownEndsLoop | Recog.hpp:543-547 | the shutdown phrase ends the loop in every mode, unless it is the hotword, launching nothing |
| Recognizer.UnknownPhraseListed | Recog.hpp:548-558 | an unknown phrase launches nothing but is listed afterwards with an empty command line |

## Left out

- Engine calls (SAPI and COM) are represented only by the budget `accepted`. The grammar's contents are not modelled, except for the words of a `CommandGroup` rule: `ruleWords`, the words handed to the rule since it was last cleared, committed or not, and `committed`, the words as of the rule's last successful `Commit`.
- Recognizer.New: engine failures in the constructor are not modelled. Each one throws out of the constructor, so no object exists to model.
- Recognizer.Initialize: the engine call in the `resume()` that `initialize()` makes is not modelled. If that call fails, the first `AddString` throws before storing anything (Recog.hpp:318-319), and the first `pause()` throws before counting (Recog.hpp:277-279). The model's `AddString` and `Pause` do not show this. Starting the detached event thread is represented only by `threadContinue`.
- Recognizer.Pause: the engine failure in `sprContext->Pause` is not modelled. The count is raised before that call, so the counter change is modelled either way.
- Recognizer.Resume: the engine failure in `sprContext->Resume` is not modelled. The count is lowered before that call, so the counter change is modelled either way.
- Recognizer.EventStep: engine failures inside the event thread are not modelled, because an exception there ends the process. The notify-handle set-up before the loop is not modelled either.
- Recognizer.EventStep: the text arrives already converted to a narrow string. The `ws2s` code-page conversion is not modelled.
- Recognizer.EventStep: after the shutdown phrase, `threadContinue` stays true, as in the code. `wait_for_exit` is the one that clears it, and `wait_for_exit` is not modelled.
- Recognizer.EventStep: the second `thread_continue` check after a timed-out wait is folded into the first. Another thread can clear the flag between the two checks, and concurrency is not modelled.
- Recognizer.RemoveByCommand: its contract covers the no-match case and the invariant only. The erased phrase is stated by `Recognizer.RemoveByCommandErasesFirstMatch`.
- Recognizer.ReaddAll: its contract states only the number of entries. The phrases are stated by `Recognizer.ReaddAllKeys`, and the commands after a loop that does not throw by `Recognizer.ReaddAllComplete`. Which entries a loop that throws part-way has re-added is not stated.
- Recognizer.ReaddAllStable: holds for the corrected splitter only. As written, the loop rewrites every entry with arguments (`Recognizer.RefreshAsWrittenGrows`).
- Recognizer.RefreshRulesStable: holds for the corrected splitter only, for the same reason.
- Recognizer.RemoveByPhrase: "the map loses just that phrase" holds for the corrected splitter only. For the splitter as written, `Recognizer.RemoveByPhraseReadds` states what the other phrases hold, and `Recognizer.RemoveByPhraseAsWrittenGrows` shows that they change.
- Recognizer.EraseThenRefresh: keeps the remaining commands with the corrected splitter only, for the same reason.
- Recognizer.AddThenRemove: gives the map back with the corrected splitter only. As written, it gives back the phrases, and their commands change as in `Recognizer.RemoveByPhraseAsWrittenGrows`.
- Recognizer.RemoveByCommandErasesFirstMatch: every other phrase keeps its command with the corrected splitter only. As written, every other phrase stays, with its command rewritten as in `Recognizer.RemoveByPhraseReadds`.
- Util.Lower: models `std::tolower` in the "C" locale only (ASCII letters). Other locales are not modelled.
- CommandGroups.FindPhrase: gives the comparison at CommandGroup.cpp:129, 188 and 210 its evident meaning: equal length, then every character equal ignoring case. In the code, the range passed to `std::equal` starts in one temporary copy of the phrase and ends in another, which is undefined behaviour (see "## Findings").
- Util.EqualIgnoringCaseIsEquivalence: is about the comparison's evident meaning, for the same reason. `CommandGroups.EqualOverSpanAsWritten` covers the code as written, for the ranges that stay inside both phrases.
- CommandGroups.Activate: requires a grammar. On a default-constructed group, the code dereferences a null grammar pointer.
- CommandGroups.Deactivate: requires a grammar, for the same reason.
- CommandGroups.AddCommand: requires a grammar whenever the phrase is new. On a default-constructed group, the code dereferences a null grammar pointer.
- CommandGroups.UpdateGrammar: requires a grammar, for the same reason. `RemoveCommand` inherits this requirement only when a phrase matches.
- `ExecCommand`, `ShellExecuteExA` and the detached threads are not modelled. The model records the command that would be launched (`Tick.launch`) and nothing more.
- `wait_for_exit`, the condition variable, the destructor's four-second wait and `CoUninitialize` are left out. They are blocking and clean-up code with no state the model keeps.
- `AddStrings` is left out. It reads each pair through two `*b++` in one call, and the order in which they are evaluated is unspecified.
- `start_listening` and `stop_listening` are left out. They only query and set the engine's recognition state, which is not modelled.
- The copy constructors, copy assignment and move constructors are left out: they copy or move fields one for one. Self-assignment guards are left out too; a value model has no object identity.
- The `CommandGroup` destructor is left out. It deactivates and clears the rule, and swallows any error.
- The commented-out splitting constructor in Command.h is not code and is not modelled.
- The Qt dialogs, `main.cpp` and `SingleInstance.h` are not part of this model.

## Findings

| source | as written | input that shows it | evidently intended | confidence | as-written member | corrected member |
|---|---|---|---|---|---|---|
| Recog.hpp:111 | the arguments are taken from the position of the separating space, so they keep that space; `cmdline()` then adds another one, and every `refresh_rules` re-split grows the arguments by one space | "prog arg" splits into "prog" and " arg"; its command line "prog  arg" splits into "prog" and "  arg" | the arguments start after the separating space, so splitting the command line of a split command gives it back | not executed; high | RecogCommands.ParseAsWrittenReparseGrows | RecogCommands.ParseIdempotent |
| Recog.hpp:394-406 | `remove_by_phrase` re-adds every other command from its command line with the splitter as written, so each one with arguments gains a space in front of them | phrases "a" for "notepad.exe a.txt" and "b" for any command; removing "b" leaves "a" with arguments "  a.txt" | removing a phrase leaves every other phrase and its command as they were | not executed; high | Recognizer.RemoveByPhraseAsWrittenGrows | Recognizer.RemoveByPhrase |
| Recog.hpp:408-421 | `remove_by_command` splits the given line with the splitter as written, so the command line that `GetStrings` lists for a command with arguments splits into a different command | "a" for "notepad.exe a.txt" is listed as "notepad.exe  a.txt", which splits into arguments "  a.txt"; removing by that line removes nothing | removing by a listed command line removes a phrase holding that command | not executed; high | Recognizer.RemoveListedAsWrittenMisses | Recognizer.RemoveListedCorrectedErases |
| Recog.hpp:175-178 | `!=` is true only when both program and arguments differ | ("notepad.exe", "a.txt") and ("notepad.exe", "b.txt") are neither `==` nor `!=` | `!=` is the negation of `==` | not executed; high | RecogCommands.NeqAsWrittenIsNotNegation | RecogCommands.NeqIsNegation |
| CommandGroup.cpp:215-266 | `update_grammar`, which `removeCommand` runs, clears and rebuilds the rule but never calls `Commit`; `addCommand` commits its change (lines 159-161) | a group holding "alpha" and "beta", both committed; `removeCommand("alpha")` succeeds, and the committed rule still holds "alpha" and "beta" until a later `addCommand` commits | the rebuild commits the rule, so after a successful remove the engine recognises exactly the remaining phrases | not executed; medium, as it rests on the engine applying rule changes only at `Commit` | CommandGroups.RemoveLeavesPhraseCommitted | CommandGroups.RemoveRecommitForgetsPhrase |
| CommandGroup.cpp:129 | `std::equal(cmd.phrase().begin(), cmd.phrase().end(), ...)` takes the start and the end of its range from two different temporary copies of the phrase, so how many characters it compares is not determined; the same pattern is at lines 188 and 210 | two phrases of equal length, such as "alpha" and "omega": if, for example, the range is shorter than the phrase (one possible outcome among others), they can compare equal, and `addCommand` then skips "omega" as a duplicate | compare the whole phrase, as one copy held in a variable would | not executed; the invalid range is certain, its effect depends on the compiler | CommandGroups.EqualOverSpanAsWritten | Util.EqualIgnoringCaseIsEquivalence |

The recogniser takes the splitter as a parameter, so both halves of the
first three rows are statements about the same operations. With the
corrected splitter, `refresh_rules` changes no stored command
(`Recognizer.RefreshRulesStable`). With the splitter as written it rewrites
every command with arguments (`Recognizer.RefreshAsWrittenGrows`).
In the same way, `CommandGroups.UpdateGrammar` and `CommandGroups.RemoveCommand`
take `recommit`. With `false` they are the code as written. With `true` the
rebuild adds the missing `Commit` and takes one more engine call.

=== FILE: command.dfy ===
/** `HNx::Command` (Command.h): the phrase to listen for, the program to
    run and its optional argument string. */
module Commands {
  import Util

  datatype Command = Command(phrase: string, exec: string, param: string)

  /** `Command() = default`: every field is the empty string. */
  function Default(): (c: Command)
    ensures c.phrase == [] && c.exec == [] && c.param == []
    ensures Cmdline(c) == []
  {
    Command([], [], [])
  }

  /** The three-argument constructor; `param` defaults to the empty string. */
  function Make(phrase: string, prog: string, param: string := []): (c: Command)
    ensures c.phrase == phrase && c.exec == prog && c.param == param
  {
    Command(phrase, prog, param)
  }

  /** Leaving out the argument string gives the same command as passing an
      empty one, and its command line is the program alone. */
  lemma MakeWithoutParam(phrase: string, prog: string)
    ensures Make(phrase, prog) == Make(phrase, prog, [])
    ensures Cmdline(Make(phrase, prog)) == prog
  {
  }

  /** The command-line composition shared by both command types: empty when
      there is no program, otherwise the program followed, when there are
      arguments, by one space and the arguments. */
  function ComposeCmdline(exec: string, param: string): (r: string)
    ensures r == [] <==> exec == []
    ensures exec != [] ==> |r| >= |exec| && r[..|exec|] == exec
    ensures exec != [] ==> (|r| == |exec| <==> param == [])
    ensures exec != [] && param != [] ==> r[|exec|] == ' ' && r[|exec| + 1..] == param
  {
    if exec == [] then []
    else if param == [] then exec
    else exec + " " + param
  }

  /** `cmdline()`: the string handed to the launcher. */
  function Cmdline(c: Command): (r: string)
    ensures r == [] <==> c.exec == []
  {
    ComposeCmdline(c.exec, c.param)
  }

  /** Whatever the arguments, a command with no program has an empty
      command line. */
  lemma CmdlineOfEmptyExec(c: Command)
    requires c.exec == []
    ensures Cmdline(c) == []
  {
  }

  /** With a program, the command line is the program alone when there are
      no arguments, and otherwise program, one space, arguments. */
  lemma CmdlineWithExec(c: Command)
    requires c.exec != []
    ensures c.param == [] ==> Cmdline(c) == c.exec
    ensures c.param != [] ==> Cmdline(c) == c.exec + " " + c.param
  {
  }

  /** `operator==`: all three fields equal, case-sensitively. */
  predicate Eq(a: Command, b: Command)
  {
    a.phrase == b.phrase && a.exec == b.exec && a.param == b.param
  }

  /** `operator!=`: the negation of `operator==`. */
  predicate Neq(a: Command, b: Command)
  {
    !Eq(a, b)
  }

  /** `==` is exactly value equality, so it is an equivalence, and `!=` is
      its exact negation. */
  lemma EqIsValueEquality(a: Command, b: Command)
    ensures Eq(a, b) <==> a == b
    ensures Neq(a, b) <==> a != b
    ensures Eq(a, b) <==> Eq(b, a)
  {
  }

  /** Phrases that differ only in case make different commands: a phrase
      the command group's lookup matches is still not `==`. */
  lemma EqIsCaseSensitive(a: Command, p: string)
    requires Util.EqualIgnoringCase(a.phrase, p) && a.phrase != p
    ensures !Eq(a, a.(phrase := p))
  {
  }

  /** `setPhrase`. */
  function SetPhrase(c: Command, t: string): (r: Command)
    ensures r.phrase == t && r.exec == c.exec && r.param == c.param
  {
    c.(phrase := t)
  }

  /** `setExec`. */
  function SetExec(c: Command, t: string): (r: Command)
    ensures r.exec == t && r.phrase == c.phrase && r.param == c.param
  {
    c.(exec := t)
  }

  /** `setParam`. */
  function SetParam(c: Command, t: string): (r: Command)
    ensures r.param == t && r.phrase == c.phrase && r.exec == c.exec
  {
    c.(param := t)
  }

  /** Setting the three fields in any order builds the same command as the
      constructor, and a later write to a field overrides an earlier one. */
  lemma SettersBuildCommand(c: Command, p: string, e: string, a: string, p2: string)
    ensures SetParam(SetExec(SetPhrase(c, p), e), a) == Make(p, e, a)
    ensures SetPhrase(SetParam(SetExec(c, e), a), p) == Make(p, e, a)
    ensures SetPhrase(SetPhrase(c, p), p2) == SetPhrase(c, p2)
  {
  }

  /** Move assignment between two distinct commands swaps their fields: the
      target receives the source's fields, the source the target's. */
  function MoveAssign(target: Command, source: Command): (r: (Command, Command))
    ensures Eq(r.0, source) && Eq(r.1, target)
  {
    (source, target)
  }
}

=== FILE: command_group.dfy ===
/** `HNx::CommandGroup` (CommandGroup.h, CommandGroup.cpp): an ordered
    vocabulary of commands bound to one rule of a recognition grammar.

    The grammar itself is outside the model. Each operation receives
    `accepted`, the number of engine calls that succeed before the first
    one that fails; an operation that stops at the first failed call (as
    every operation here does) is thereby modelled for every possible engine
    behaviour. `ruleWords` records the phrases handed to the rule through
    `AddWordTransition` since it was last cleared, committed or not, and
    `committed` the rule's phrases as of its last successful `Commit`: the
    vocabulary the engine recognises. */
module CommandGroups {
  import opened Wrappers
  import opened Util
  import opened Commands

  /** `CmdGroupState`. */
  datatype GroupState = Unknown | Active | Inactive

  datatype CommandGroup = CommandGroup(
    grammar: bool,           // `m_cpGram` is not null
    ruleId: nat,             // `m_gramID`, also the grammar id
    name: string,            // `m_grammarName`
    cmds: seq<Command>,      // `m_cmds`
    hasState: bool,          // `m_hState` is not null
    state: GroupState,       // `currentState`
    ruleWords: seq<string>,  // phrases added to the rule since it was cleared
    committed: seq<string>)  // the rule's phrases at its last `Commit`

  /** The two exception types the group throws. */
  datatype Error = InvalidArgument | EngineError

  /** The group after an operation, and whether the operation threw. */
  datatype Outcome = Outcome(group: CommandGroup, threw: bool)

  /** The phrases of `cmds`, in order. */
  function Phrases(cmds: seq<Command>): (r: seq<string>)
    ensures |r| == |cmds|
    ensures forall i :: 0 <= i < |cmds| ==> r[i] == cmds[i].phrase
  {
    seq(|cmds|, i requires 0 <= i < |cmds| => cmds[i].phrase)
  }

  /** No two stored phrases are equal ignoring case. */
  predicate Distinct(cmds: seq<Command>)
  {
    forall i, j :: 0 <= i < j < |cmds| ==> !EqualIgnoringCase(cmds[i].phrase, cmds[j].phrase)
  }

  /** The rule holds exactly the stored phrases, in stored order. */
  predicate Synced(g: CommandGroup)
  {
    g.ruleWords == Phrases(g.cmds)
  }

  /** The engine recognises exactly the stored phrases, in stored order:
      the committed rule agrees with the vocabulary. */
  predicate Compiled(g: CommandGroup)
  {
    g.committed == Phrases(g.cmds)
  }

  /** The state restored after an update: Active only if it was Active. */
  function Restored(before: GroupState): GroupState
  {
    if before == Active then Active else Inactive
  }

  /** The default constructor: no grammar, rule id 0, no commands, no state
      handle, state Unknown. */
  function DefaultGroup(): (g: CommandGroup)
    ensures !g.grammar && g.ruleId == 0 && g.name == [] && g.cmds == []
    ensures !g.hasState && g.state == Unknown
    ensures Distinct(g.cmds) && Synced(g) && Compiled(g)
  {
    CommandGroup(false, 0, [], [], false, Unknown, [], [])
  }

  /** The engine calls the constructor makes: CreateGrammar, ResetGrammar,
      SetGrammarState, GetRule, SetRuleIdState. */
  const CreateCalls: nat := 5

  /** The constructor. `context` says whether the recognition context
      pointer is non-null. Argument checks come before any engine call. */
  function Create(context: bool, name: string, id: nat, accepted: nat): (r: Result<CommandGroup, Error>)
    ensures !context ==> r == Failure(InvalidArgument)
    ensures id == 0 ==> r == Failure(InvalidArgument)
    ensures context && id != 0 ==> (r.Success? <==> accepted >= CreateCalls)
    ensures context && id != 0 && r.Failure? ==> r.error == EngineError
    ensures r.Success? ==> r.value.grammar && r.value.ruleId == id && r.value.name == name
    ensures r.Success? ==> r.value.cmds == [] && r.value.state == Inactive && !r.value.hasState
    ensures r.Success? ==> Distinct(r.value.cmds) && Synced(r.value) && Compiled(r.value)
  {
    if !context then Failure(InvalidArgument)
    else if id == 0 then Failure(InvalidArgument)
    else if accepted < CreateCalls then Failure(EngineError)
    else Success(CommandGroup(true, id, name, [], false, Inactive, [], []))
  }

  /** `activate()`: one engine call; the state changes only if it succeeds. */
  function Activate(g: CommandGroup, accepted: nat): (o: Outcome)
    requires g.grammar
    ensures o.threw <==> accepted == 0
    ensures o.threw ==> o.group == g
    ensures !o.threw ==> o.group.state == Active
    ensures o.group.(state := g.state) == g
  {
    if accepted == 0 then Outcome(g, true) else Outcome(g.(state := Active), false)
  }

  /** `deactivate()`: one engine call; the state changes only if it succeeds. */
  function Deactivate(g: CommandGroup, accepted: nat): (o: Outcome)
    requires g.grammar
    ensures o.threw <==> accepted == 0
    ensures o.threw ==> o.group == g
    ensures !o.threw ==> o.group.state == Inactive
    ensures o.group.(state := g.state) == g
  {
    if accepted == 0 then Outcome(g, true) else Outcome(g.(state := Inactive), false)
  }

  /** Index of the first command whose phrase has the same length as `p` and
      is equal to it ignoring case. */
  function FindPhrase(cmds: seq<Command>, p: string): (r: Option<nat>)
    ensures r.None? <==> forall j :: 0 <= j < |cmds| ==> !EqualIgnoringCase(cmds[j].phrase, p)
    ensures r.Some? ==> r.value < |cmds| && EqualIgnoringCase(cmds[r.value].phrase, p)
    ensures r.Some? ==> forall j :: 0 <= j < r.value ==> !EqualIgnoringCase(cmds[j].phrase, p)
  {
    if cmds == [] then None
    else if EqualIgnoringCase(cmds[0].phrase, p) then Some(0)
    else match FindPhrase(cmds[1..], p)
      case None => None
      case Some(i) => Some(i + 1)
  }

  /** The phrase comparison as written. `std::equal(cmd.phrase().begin(),
      cmd.phrase().end(), p.begin(), icase_cmp_wchar)` takes the two ends of
      its range from two separate copies of the phrase, so the code does not
      determine how many characters it compares. `span` is that count; the
      model covers only the spans that stay within both strings. */
  predicate EqualOverSpan(a: string, b: string, span: nat)
  {
    |a| == |b| && span <= |a| && forall i :: 0 <= i < span ==> IcaseCmpWchar(a[i], b[i])
  }

  /** Over the whole phrase the written comparison is `EqualIgnoringCase`,
      which `FindPhrase` uses; over a shorter span, two different phrases of
      the same length compare equal, so "omega" would be skipped as a
      duplicate of "alpha". */
  lemma EqualOverSpanAsWritten(a: string, b: string)
    ensures |a| == |b| ==> (EqualOverSpan(a, b, |a|) <==> EqualIgnoringCase(a, b))
    ensures EqualOverSpan("alpha", "omega", 0) && !EqualIgnoringCase("alpha", "omega")
  {
    assert !IcaseCmpWchar("alpha"[0], "omega"[0]);
  }

  /** One call to leave the Active (or Unknown) state before an update. */
  function SuspendCalls(g: CommandGroup): nat
  {
    if g.state != Inactive then 1 else 0
  }

  /** One call to re-enter the Active state after an update. */
  function ResumeCalls(g: CommandGroup): nat
  {
    if g.state == Active then 1 else 0
  }

  /** Engine calls a complete `addCommand` of a new phrase makes. */
  function AddCalls(g: CommandGroup): nat
  {
    SuspendCalls(g) + 4 + (if g.hasState then 0 else 1) + ResumeCalls(g)
  }

  /** Engine calls a complete `update_grammar` makes; `recommit` adds the
      `Commit` the code leaves out. */
  function RebuildCalls(g: CommandGroup, recommit: bool): nat
  {
    SuspendCalls(g) + 4 + |g.cmds| + (if recommit then 1 else 0) + ResumeCalls(g)
  }

  /** The re-activation that ends `addCommand` and `update_grammar`. */
  function Reactivate(g: CommandGroup, before: GroupState, accepted: nat): (o: Outcome)
    requires g.grammar
  {
    if before == Active then Activate(g, accepted) else Outcome(g, false)
  }

  /** `addCommand`: a phrase already present (ignoring case) changes
      nothing. Otherwise the group is deactivated unless it is Inactive,
      the engine chain GetRule, CreateNewState (first time only),
      AddWordTransition, Commit, SetRuleIdState runs, and only if all of it
      succeeds is the command appended; the group is then re-activated if
      it was Active. */
  function AddCommand(g: CommandGroup, cmd: Command, accepted: nat): (o: Outcome)
    requires g.grammar || FindPhrase(g.cmds, cmd.phrase).Some?
    ensures FindPhrase(g.cmds, cmd.phrase).Some? ==> o == Outcome(g, false)
    ensures o.group.cmds == g.cmds || o.group.cmds == g.cmds + [cmd]
    ensures o.group.cmds == g.cmds + [cmd] <==>
      FindPhrase(g.cmds, cmd.phrase).None? && accepted >= AddCalls(g) - ResumeCalls(g)
    ensures !o.threw <==> FindPhrase(g.cmds, cmd.phrase).Some? || accepted >= AddCalls(g)
    ensures FindPhrase(g.cmds, cmd.phrase).None? && !o.threw ==> o.group.state == Restored(g.state)
    ensures o.threw ==> o.group == g || o.group.state == Inactive
    ensures o.group.grammar == g.grammar && o.group.ruleId == g.ruleId && o.group.name == g.name
    ensures Distinct(g.cmds) ==> Distinct(o.group.cmds)
    ensures Synced(g) && !o.threw ==> Synced(o.group)
    ensures Synced(g) && Compiled(g) && !o.threw ==> Compiled(o.group)
  {
    if FindPhrase(g.cmds, cmd.phrase).Some? then Outcome(g, false)
    else if accepted < SuspendCalls(g) then Outcome(g, true)
    else
      var left := accepted - SuspendCalls(g);
      var create := if g.hasState then 0 else 1;
      var h := g.(state := Inactive,
                  hasState := g.hasState || left >= 2,
                  ruleWords := if left >= 2 + create then g.ruleWords + [cmd.phrase] else g.ruleWords,
                  committed := if left >= 3 + create then g.ruleWords + [cmd.phrase] else g.committed);
      if left < 4 + create then Outcome(h, true)
      else Reactivate(h.(cmds := g.cmds + [cmd]), g.state, left - (4 + create))
  }

  /** `update_grammar`: deactivate unless Inactive, ClearRule, GetRule,
      CreateNewState, one AddWordTransition per stored command in order,
      SetRuleIdState, then re-activate if it was Active. The vocabulary is
      never touched; on success the rule holds exactly the stored phrases,
      and a failure part-way leaves it holding a prefix of them. The state
      handle is dropped before GetRule whether or not ClearRule succeeds.
      As written (`recommit` false) the rebuilt rule is never committed;
      `recommit` adds a Commit after the last AddWordTransition. */
  function UpdateGrammar(g: CommandGroup, recommit: bool, accepted: nat): (o: Outcome)
    requires g.grammar
    ensures o.group.cmds == g.cmds
    ensures !o.threw <==> accepted >= RebuildCalls(g, recommit)
    ensures !o.threw ==> Synced(o.group) && o.group.state == Restored(g.state) && o.group.hasState
    ensures accepted < SuspendCalls(g) ==> o == Outcome(g, true)
    ensures accepted >= SuspendCalls(g) ==> (o.group.hasState <==> accepted - SuspendCalls(g) >= 3)
    ensures o.threw ==> o.group == g || o.group.state == Inactive
    ensures o.group.ruleWords == g.ruleWords || o.group.ruleWords <= Phrases(g.cmds)
    ensures !recommit ==> o.group.committed == g.committed
    ensures recommit && !o.threw ==> Compiled(o.group)
    ensures o.group.grammar == g.grammar && o.group.ruleId == g.ruleId && o.group.name == g.name
  {
    if accepted < SuspendCalls(g) then Outcome(g, true)
    else
      var left := accepted - SuspendCalls(g);
      var n := |g.cmds|;
      var c := if recommit then 1 else 0;
      var added := if left < 3 then 0 else if left - 3 < n then left - 3 else n;
      var h := g.(state := Inactive,
                  hasState := left >= 3,
                  ruleWords := if left >= 1 then Phrases(g.cmds)[..added] else g.ruleWords,
                  committed := if recommit && left >= 4 + n then Phrases(g.cmds) else g.committed);
      if left < 4 + n + c then Outcome(h, true)
      else Reactivate(h, g.state, left - (4 + n + c))
  }

  /** `cmds` without its element at `i`. */
  function RemoveAt(cmds: seq<Command>, i: nat): (r: seq<Command>)
    requires i < |cmds|
    ensures |r| == |cmds| - 1
    ensures forall j :: 0 <= j < i ==> r[j] == cmds[j]
    ensures forall j :: i <= j < |r| ==> r[j] == cmds[j + 1]
  {
    cmds[..i] + cmds[i + 1..]
  }

  /** `removeCommand`: an empty phrase or one that matches nothing changes
      nothing. Otherwise the first match is erased BEFORE the rule is
      rebuilt, so the command is gone even when the rebuild throws.
      `recommit` selects the rebuild as written or with its Commit. */
  function RemoveCommand(g: CommandGroup, phrase: string, recommit: bool, accepted: nat): (o: Outcome)
    requires g.grammar || phrase == [] || FindPhrase(g.cmds, phrase).None?
    ensures phrase == [] || FindPhrase(g.cmds, phrase).None? ==> o == Outcome(g, false)
    ensures phrase != [] && FindPhrase(g.cmds, phrase).Some? ==>
      o.group.cmds == RemoveAt(g.cmds, FindPhrase(g.cmds, phrase).value)
    ensures phrase != [] && FindPhrase(g.cmds, phrase).Some? ==>
      (!o.threw <==> accepted >= RebuildCalls(g, recommit) - 1)
    ensures phrase != [] && FindPhrase(g.cmds, phrase).Some? && !o.threw ==>
      Synced(o.group) && o.group.state == Restored(g.state)
    ensures o.group.grammar == g.grammar && o.group.ruleId == g.ruleId && o.group.name == g.name
    ensures Distinct(g.cmds) ==> Distinct(o.group.cmds)
    ensures !recommit ==> o.group.committed == g.committed
    ensures recommit && Compiled(g) && !o.threw ==> Compiled(o.group)
  {
    if phrase == [] then Outcome(g, false)
    else match FindPhrase(g.cmds, phrase)
      case None => Outcome(g, false)
      case Some(i) => UpdateGrammar(g.(cmds := RemoveAt(g.cmds, i)), recommit, accepted)
  }

  /** `getWords`: the stored phrases in stored order. */
  function GetWords(g: CommandGroup): (r: seq<string>)
    ensures |r| == |g.cmds|
    ensures forall i :: 0 <= i < |g.cmds| ==> r[i] == g.cmds[i].phrase
  {
    Phrases(g.cmds)
  }

  /** `getCommandByPhrase`: the first command whose phrase equals `p`
      ignoring case, or the default command (empty exec) when none does. */
  function GetCommandByPhrase(g: CommandGroup, p: string): (c: Command)
    ensures FindPhrase(g.cmds, p).None? ==> c == Default() && c.exec == []
    ensures FindPhrase(g.cmds, p).Some? ==> c == g.cmds[FindPhrase(g.cmds, p).value]
  {
    match FindPhrase(g.cmds, p)
    case None => Default()
    case Some(i) => g.cmds[i]
  }

  /** Move assignment between two distinct groups: the target takes over
      the source's grammar, rule id, state handle, state and commands; the
      source is left with no grammar, rule id 0, state Unknown and no state
      handle, and receives the target's former name and commands by swap. */
  function MoveAssign(target: CommandGroup, source: CommandGroup): (r: (CommandGroup, CommandGroup))
    ensures r.0 == source
    ensures !r.1.grammar && r.1.ruleId == 0 && r.1.state == Unknown && !r.1.hasState
    ensures r.1.name == target.name && r.1.cmds == target.cmds
    ensures multiset(r.0.cmds) + multiset(r.1.cmds) == multiset(target.cmds) + multiset(source.cmds)
  {
    (source, CommandGroup(false, 0, target.name, target.cmds, false, Unknown, [], []))
  }

  // ---------------------------------------------------------------------
  // Properties relating several operations
  // ---------------------------------------------------------------------

  /** With distinct phrases, looking up any stored phrase finds exactly
      the command stored under it: `getWords` and `getCommandByPhrase`
      agree. */
  lemma {:induction false} WordsLookupAgree(g: CommandGroup, i: nat)
    requires Distinct(g.cmds) && i < |g.cmds|
    ensures GetCommandByPhrase(g, GetWords(g)[i]) == g.cmds[i]
  {
    var p := g.cmds[i].phrase;
    EqualIgnoringCaseIsEquivalence(p, p, p);
    var f := FindPhrase(g.cmds, p);
    assert f.Some?;
  }

  /** After a successful add, every phrase equal to the new one ignoring
      case looks up the new command. */
  lemma {:induction false} AddThenLookup(g: CommandGroup, cmd: Command, accepted: nat, p: string)
    requires g.grammar && Distinct(g.cmds)
    requires FindPhrase(g.cmds, cmd.phrase).None? && accepted >= AddCalls(g)
    requires EqualIgnoringCase(p, cmd.phrase)
    ensures GetCommandByPhrase(AddCommand(g, cmd, accepted).group, p) == cmd
  {
    var cmds := AddCommand(g, cmd, accepted).group.cmds;
    assert cmds == g.cmds + [cmd];
    forall j | 0 <= j < |g.cmds| ensures !EqualIgnoringCase(cmds[j].phrase, p) {
      EqualIgnoringCaseIsEquivalence(g.cmds[j].phrase, p, cmd.phrase);
    }
    EqualIgnoringCaseIsEquivalence(cmd.phrase, p, p);
    assert EqualIgnoringCase(cmds[|g.cmds|].phrase, p);
  }

  /** Adding two phrases that differ only in case stores at most one
      command: the second add changes nothing once the first succeeded. */
  lemma {:induction false} AddCaseVariantsOnce(g: CommandGroup, c1: Command, c2: Command, a1: nat, a2: nat)
    requires g.grammar && EqualIgnoringCase(c1.phrase, c2.phrase)
    requires FindPhrase(g.cmds, c1.phrase).None?
    ensures var o1 := AddCommand(g, c1, a1);
            var o2 := AddCommand(o1.group, c2, a2);
            |o2.group.cmds| <= |g.cmds| + 1 &&
            (o1.group.cmds == g.cmds + [c1] ==> o2 == Outcome(o1.group, false))
  {
    var o1 := AddCommand(g, c1, a1);
    if o1.group.cmds == g.cmds + [c1] {
      assert o1.group.cmds[|g.cmds|] == c1;
      assert FindPhrase(o1.group.cmds, c2.phrase).Some?;
    } else {
      assert o1.group.cmds == g.cmds;
    }
  }

  /** After a remove the phrase matches nothing any more, even when the
      rebuild of the rule failed. */
  lemma {:induction false} RemoveThenMissing(g: CommandGroup, phrase: string, recommit: bool, accepted: nat)
    requires g.grammar && Distinct(g.cmds) && phrase != []
    ensures FindPhrase(RemoveCommand(g, phrase, recommit, accepted).group.cmds, phrase).None?
  {
    var f := FindPhrase(g.cmds, phrase);
    if f.Some? {
      var i := f.value;
      var r := RemoveCommand(g, phrase, recommit, accepted).group.cmds;
      forall j | 0 <= j < |r| ensures !EqualIgnoringCase(r[j].phrase, phrase) {
        if j >= i {
          assert r[j] == g.cmds[j + 1];
          EqualIgnoringCaseIsEquivalence(g.cmds[i].phrase, phrase, g.cmds[j + 1].phrase);
        }
      }
    }
  }

  /** The rule and the vocabulary can disagree after a failed add: when
      AddWordTransition succeeds and Commit fails, the rule holds a phrase
      that was never stored. */
  lemma {:induction false} FailedCommitDesyncs(g: CommandGroup, cmd: Command)
    requires g.grammar && Synced(g) && g.state == Inactive && g.hasState
    requires FindPhrase(g.cmds, cmd.phrase).None?
    ensures var o := AddCommand(g, cmd, 2);
            o.threw && o.group.cmds == g.cmds && !Synced(o.group) && o.group.committed == g.committed
  {
    var o := AddCommand(g, cmd, 2);
    assert o.group.ruleWords == g.ruleWords + [cmd.phrase];
    assert |o.group.ruleWords| != |Phrases(o.group.cmds)|;
  }

  /** As written, a successful remove leaves the committed rule as it was:
      the rule handed to the engine is rebuilt without the phrase, but the
      engine keeps recognising it until a later `addCommand` commits. */
  lemma {:induction false} RemoveLeavesPhraseCommitted(g: CommandGroup, phrase: string, accepted: nat)
    requires g.grammar && Compiled(g) && phrase != [] && FindPhrase(g.cmds, phrase).Some?
    ensures var o := RemoveCommand(g, phrase, false, accepted);
            var i := FindPhrase(g.cmds, phrase).value;
            o.group.committed == g.committed && g.cmds[i].phrase in o.group.committed &&
            !Compiled(o.group) && (!o.threw ==> Synced(o.group))
  {
    var o := RemoveCommand(g, phrase, false, accepted);
    var i := FindPhrase(g.cmds, phrase).value;
    assert g.committed[i] == g.cmds[i].phrase;
    assert |o.group.committed| != |Phrases(o.group.cmds)|;
  }

  /** With the Commit added to the rebuild, a successful remove leaves the
      engine recognising exactly the remaining phrases, none of which equals
      the removed one ignoring case. */
  lemma {:induction false} RemoveRecommitForgetsPhrase(g: CommandGroup, phrase: string, accepted: nat)
    requires g.grammar && Compiled(g) && Distinct(g.cmds) && phrase != []
    ensures var o := RemoveCommand(g, phrase, true, accepted);
            !o.threw ==> (Compiled(o.group) &&
              forall j :: 0 <= j < |o.group.committed| ==> !EqualIgnoringCase(o.group.committed[j], phrase))
  {
    var o := RemoveCommand(g, phrase, true, accepted);
    RemoveThenMissing(g, phrase, true, accepted);
    if !o.threw {
      forall j | 0 <= j < |o.group.committed|
        ensures !EqualIgnoringCase(o.group.committed[j], phrase)
      {
        assert o.group.committed[j] == o.group.cmds[j].phrase;
      }
    }
  }
}

=== FILE: command_map.dfy ===
/** The `std::map<std::string, Command>` that `Recog` keeps, modelled as
    its in-order sequence of entries: keys strictly ascending under
    `std::string`'s `operator<`. */
module CommandMap {

  /** `std::string` ordering: lexicographic on characters, a proper prefix
      coming first. */
  predicate Less(a: string, b: string)
  {
    if a == [] then b != []
    else if b == [] then false
    else if a[0] != b[0] then a[0] < b[0]
    else Less(a[1..], b[1..])
  }

  lemma {:induction false} LessIrreflexive(a: string)
    ensures !Less(a, a)
  {
    if a != [] {
      LessIrreflexive(a[1..]);
    }
  }

  lemma {:induction false} LessTransitive(a: string, b: string, c: string)
    requires Less(a, b) && Less(b, c)
    ensures Less(a, c)
  {
    if a != [] && b != [] && c != [] && a[0] == b[0] && b[0] == c[0] {
      LessTransitive(a[1..], b[1..], c[1..]);
    }
  }

  /** Any two different strings are ordered one way or the other. */
  lemma {:induction false} LessTotal(a: string, b: string)
    requires a != b
    ensures Less(a, b) || Less(b, a)
  {
    if a != [] && b != [] && a[0] == b[0] {
      assert a == [a[0]] + a[1..] && b == [b[0]] + b[1..];
      LessTotal(a[1..], b[1..]);
    }
  }

  lemma {:induction false} LessAsymmetric(a: string, b: string)
    requires Less(a, b)
    ensures !Less(b, a)
  {
    if Less(b, a) {
      LessTransitive(a, b, a);
      LessIrreflexive(a);
    }
  }

  datatype Entry<V> = Entry(key: string, value: V)

  /** Keys strictly ascending, hence pairwise distinct. */
  predicate Sorted<V>(es: seq<Entry<V>>)
  {
    forall i, j :: 0 <= i < j < |es| ==> Less(es[i].key, es[j].key)
  }

  function Keys<V>(es: seq<Entry<V>>): set<string>
  {
    set i | 0 <= i < |es| :: es[i].key
  }

  lemma KeysCons<V>(e: Entry<V>, es: seq<Entry<V>>)
    ensures Keys([e] + es) == {e.key} + Keys(es)
  {
    var r := [e] + es;
    forall x | x in Keys(r) ensures x in {e.key} + Keys(es) {
      var i :| 0 <= i < |r| && r[i].key == x;
      if i > 0 { assert es[i - 1].key == x; }
    }
    forall x | x in Keys(es) ensures x in Keys(r) {
      var i :| 0 <= i < |es| && es[i].key == x;
      assert r[i + 1].key == x;
    }
    assert r[0].key == e.key;
  }

  /** A non-empty sequence is its head followed by its tail. */
  lemma KeysHeadTail<V>(es: seq<Entry<V>>)
    requires es != []
    ensures Keys(es) == {es[0].key} + Keys(es[1..])
  {
    assert es == [es[0]] + es[1..];
    KeysCons(es[0], es[1..]);
  }

  /** The map the entries stand for. */
  function AsMap<V>(es: seq<Entry<V>>): (m: map<string, V>)
    ensures m.Keys == Keys(es)
  {
    if es == [] then map[]
    else
      var rest := AsMap(es[1..]);
      KeysHeadTail(es);
      rest[es[0].key := es[0].value]
  }

  /** In a sorted sequence each entry is what the map holds for its key. */
  lemma {:induction false} AsMapAt<V>(es: seq<Entry<V>>, i: nat)
    requires Sorted(es) && i < |es|
    ensures AsMap(es)[es[i].key] == es[i].value
  {
    if i > 0 {
      assert es[1..][i - 1] == es[i];
      LessIrreflexive(es[i].key);
      assert es[0].key != es[i].key;
      AsMapAt(es[1..], i - 1);
    }
  }

  /** `m[k] = v`: overwrites the entry for `k` in place, or inserts a new
      entry at its ordered position. */
  function Insert<V>(es: seq<Entry<V>>, k: string, v: V): (r: seq<Entry<V>>)
    ensures Keys(r) == Keys(es) + {k}
    ensures forall e :: e in r ==> e in es || e == Entry(k, v)
  {
    if es == [] then
      KeysCons(Entry(k, v), es);
      [Entry(k, v)]
    else if es[0].key == k then
      KeysCons(Entry(k, v), es[1..]);
      KeysHeadTail(es);
      [Entry(k, v)] + es[1..]
    else if Less(k, es[0].key) then
      KeysCons(Entry(k, v), es);
      [Entry(k, v)] + es
    else
      var tail := Insert(es[1..], k, v);
      KeysCons(es[0], tail);
      KeysHeadTail(es);
      [es[0]] + tail
  }

  /** Every key of a sorted tail lies above its head. */
  lemma HeadBelowTail<V>(es: seq<Entry<V>>, x: string)
    requires Sorted(es) && es != [] && x in Keys(es[1..])
    ensures Less(es[0].key, x)
  {
    var y :| 0 <= y < |es[1..]| && es[1..][y].key == x;
    assert es[y + 1].key == x;
  }

  /** A head below every key of a sorted tail extends it to a sorted sequence. */
  lemma ConsSorted<V>(e: Entry<V>, es: seq<Entry<V>>)
    requires Sorted(es)
    requires forall x :: x in Keys(es) ==> Less(e.key, x)
    ensures Sorted([e] + es)
  {
    var r := [e] + es;
    forall i, j | 0 <= i < j < |r| ensures Less(r[i].key, r[j].key) {
      if i == 0 {
        assert r[j].key == es[j - 1].key;
        assert es[j - 1].key in Keys(es);
      } else {
        assert r[i] == es[i - 1] && r[j] == es[j - 1];
      }
    }
  }

  lemma TailSorted<V>(es: seq<Entry<V>>)
    requires Sorted(es) && es != []
    ensures Sorted(es[1..])
  {
  }

  /** Writing into a sorted sequence keeps it sorted. */
  lemma {:induction false} InsertSorted<V>(es: seq<Entry<V>>, k: string, v: V)
    requires Sorted(es)
    ensures Sorted(Insert(es, k, v))
  {
    if es == [] {
    } else if es[0].key == k {
      TailSorted(es);
      forall x | x in Keys(es[1..]) ensures Less(k, x) {
        HeadBelowTail(es, x);
      }
      ConsSorted(Entry(k, v), es[1..]);
    } else if Less(k, es[0].key) {
      forall x | x in Keys(es) ensures Less(k, x) {
        KeysHeadTail(es);
        if x != es[0].key {
          HeadBelowTail(es, x);
          LessTransitive(k, es[0].key, x);
        }
      }
      ConsSorted(Entry(k, v), es);
    } else {
      TailSorted(es);
      InsertSorted(es[1..], k, v);
      LessTotal(k, es[0].key);
      forall x | x in Keys(Insert(es[1..], k, v)) ensures Less(es[0].key, x) {
        if x != k {
          HeadBelowTail(es, x);
        }
      }
      ConsSorted(es[0], Insert(es[1..], k, v));
    }
  }

  lemma UpdateCommutes<V>(m: map<string, V>, a: string, x: V, b: string, y: V)
    requires a != b
    ensures m[a := x][b := y] == m[b := y][a := x]
  {
  }

  /** Writing `v` at `k` is a map update. */
  lemma {:induction false} InsertAsMap<V>(es: seq<Entry<V>>, k: string, v: V)
    ensures AsMap(Insert(es, k, v)) == AsMap(es)[k := v]
  {
    if es == [] {
    } else if es[0].key == k {
      var r := [Entry(k, v)] + es[1..];
      assert r[1..] == es[1..];
      assert AsMap(r) == AsMap(es[1..])[k := v];
    } else if Less(k, es[0].key) {
      var r := [Entry(k, v)] + es;
      assert r[1..] == es;
      assert AsMap(r) == AsMap(es)[k := v];
    } else {
      var tail := Insert(es[1..], k, v);
      var r := [es[0]] + tail;
      assert r[1..] == tail;
      InsertAsMap(es[1..], k, v);
      var m := AsMap(es[1..]);
      calc {
        AsMap(r);
        AsMap(tail)[es[0].key := es[0].value];
        m[k := v][es[0].key := es[0].value];
        { UpdateCommutes(m, k, v, es[0].key, es[0].value); }
        m[es[0].key := es[0].value][k := v];
        AsMap(es)[k := v];
      }
    }
  }

  /** Writing to a key that is present replaces that one entry in place. */
  lemma {:induction false} InsertExisting<V>(es: seq<Entry<V>>, i: nat, v: V)
    requires Sorted(es) && i < |es|
    ensures Insert(es, es[i].key, v) == es[i := Entry(es[i].key, v)]
  {
    var k := es[i].key;
    if i == 0 {
      assert es[i := Entry(k, v)] == [Entry(k, v)] + es[1..];
    } else {
      assert Less(es[0].key, k);
      LessAsymmetric(es[0].key, k);
      LessIrreflexive(k);
      assert es[1..][i - 1] == es[i];
      TailSorted(es);
      InsertExisting(es[1..], i - 1, v);
      assert es[i := Entry(k, v)] == [es[0]] + es[1..][i - 1 := Entry(k, v)];
    }
  }

  /** `m.erase(k)`: drops the entry for `k`, if any. */
  function Erase<V>(es: seq<Entry<V>>, k: string): (r: seq<Entry<V>>)
    ensures Keys(r) == Keys(es) - {k}
    ensures forall e :: e in r ==> e in es
    ensures |r| <= |es|
  {
    if es == [] then []
    else
      var tail := Erase(es[1..], k);
      KeysHeadTail(es);
      if es[0].key == k then tail
      else
        KeysCons(es[0], tail);
        [es[0]] + tail
  }

  /** Erasing from a sorted sequence keeps it sorted. */
  lemma {:induction false} EraseSorted<V>(es: seq<Entry<V>>, k: string)
    requires Sorted(es)
    ensures Sorted(Erase(es, k))
  {
    if es != [] {
      TailSorted(es);
      EraseSorted(es[1..], k);
      KeysHeadTail(es);
      if es[0].key == k {
        assert k !in Keys(es[1..]) by {
          if k in Keys(es[1..]) {
            HeadBelowTail(es, k);
            LessIrreflexive(k);
          }
        }
      } else {
        var tail := Erase(es[1..], k);
        forall x | x in Keys(tail) ensures Less(es[0].key, x) {
          HeadBelowTail(es, x);
        }
        ConsSorted(es[0], tail);
        KeysCons(es[0], tail);
      }
    }
  }

  /** Erasing from a sorted sequence is map removal. */
  lemma {:induction false} EraseAsMap<V>(es: seq<Entry<V>>, k: string)
    requires Sorted(es)
    ensures AsMap(Erase(es, k)) == AsMap(es) - {k}
  {
    if es != [] {
      TailSorted(es);
      EraseAsMap(es[1..], k);
      var m := AsMap(es[1..]);
      if es[0].key == k {
        assert k !in Keys(es[1..]) by {
          if k in Keys(es[1..]) {
            HeadBelowTail(es, k);
            LessIrreflexive(k);
          }
        }
        assert m - {k} == m;
      } else {
        var tail := Erase(es[1..], k);
        var r := [es[0]] + tail;
        assert r[1..] == tail;
        calc {
          AsMap(r);
          AsMap(tail)[es[0].key := es[0].value];
          (m - {k})[es[0].key := es[0].value];
          { UpdateThenErase(m, es[0].key, es[0].value, k); }
          m[es[0].key := es[0].value] - {k};
          AsMap(es) - {k};
        }
      }
    }
  }

  lemma UpdateThenErase<V>(m: map<string, V>, a: string, v: V, k: string)
    requires a != k
    ensures (m - {k})[a := v] == m[a := v] - {k}
  {
  }

  /** Position of the entry for `k`, if any. */
  function IndexOf<V>(es: seq<Entry<V>>, k: string): (r: nat)
    ensures r <= |es|
    ensures r < |es| ==> es[r].key == k
    ensures r == |es| <==> k !in Keys(es)
  {
    if es == [] then 0
    else if es[0].key == k then 0
    else
      var i := IndexOf(es[1..], k);
      assert k in Keys(es) ==> k in Keys(es[1..]) by {
        if k in Keys(es) {
          var j :| 0 <= j < |es| && es[j].key == k;
          assert es[1..][j - 1].key == k;
        }
      }
      assert i < |es[1..]| ==> es[i + 1] == es[1..][i];
      1 + i
  }
}

=== FILE: recog.dfy ===
/** The `Recog` class of Recog.hpp: a speech recogniser with a hotword
    rule and a command rule, a pause counter, and a map from spoken phrase
    to the command it launches.

    The recogniser engine is not modelled beyond its effect: an operation
    that makes engine calls takes a budget `accepted`, the number of calls
    that succeed before one fails and the operation throws. */
module Recognizer {
  import opened Wrappers
  import opened CommandMap
  import opened RecogCommands

  datatype ListeningMode = NotListening | ListeningForHotword | ListeningForCommand

  /** The phrase that stops the event loop. */
  const ShutdownPhrase: string := "Shutdown Speech Recognition"

  /** Seconds the event loop listens for a command before falling back to
      the hotword. */
  const WatchdogSeconds: int := 5

  /** Engine calls of `AddString`: get the rule, add the word, commit, set
      the interest, set the rule state. */
  const AddStringCalls: nat := 5

  /** Engine calls `refresh_rules` makes before it re-adds the commands:
      reset the grammar, then five calls for each of the two rules. */
  const RefreshSetupCalls: nat := 11

  /** `waitingSeconds` is the event loop's local counter, kept here so that
      one loop iteration is a function of the state. */
  datatype Recog = Recog(
    hotword: string,
    pauseCount: int,
    initialized: bool,
    threadContinue: bool,
    threadFinished: bool,
    mode: ListeningMode,
    waitingSeconds: int,
    commands: seq<Entry<RecogCommand>>)

  /** The result of an operation that may throw after changing state. */
  datatype Step = Step(recog: Recog, threw: bool)

  /** The line splitter the recogniser stores commands with: the splitting
      constructor of Recog.hpp as written, which keeps the separating space
      in the arguments, or as evidently intended, which drops it. The code
      is the recogniser with `AsWritten`. */
  datatype Splitter = AsWritten | Corrected

  function Split(sp: Splitter, s: string): RecogCommand
  {
    match sp
    case AsWritten => ParseAsWritten(s)
    case Corrected => Parse(s)
  }

  /** The command a re-add stores for a stored command: the split of its
      command line. */
  function Reparse(sp: Splitter, c: RecogCommand): RecogCommand
  {
    Split(sp, Cmdline(c))
  }

  /** Every stored command is one the corrected splitter gives back from
      its own command line (`ParseCmdlineIff`), so a re-add with it leaves
      the command as it is. */
  predicate Stable(es: seq<Entry<RecogCommand>>)
  {
    es == [] || (Reparsable(es[0].value) && Stable(es[1..]))
  }

  lemma {:induction false} StableMembers(es: seq<Entry<RecogCommand>>)
    ensures Stable(es) <==> forall e :: e in es ==> Reparsable(e.value)
  {
    if es != [] {
      StableMembers(es[1..]);
      assert es == [es[0]] + es[1..];
    }
  }

  /** What every reachable state satisfies, whichever the splitter. With
      the corrected splitter every stored command is also `Stable`. */
  predicate Valid(r: Recog)
  {
    && r.pauseCount >= 0
    && 0 <= r.waitingSeconds < WatchdogSeconds
    && Sorted(r.commands)
    && (r.commands != [] ==> r.initialized)
  }

  /** The constructor: the context is paused once, no thread runs yet and
      no command is known. Engine failures here are not modelled. */
  function New(hotword: string := "computer"): (r: Recog)
    ensures Valid(r) && Stable(r.commands)
    ensures r.hotword == hotword && r.pauseCount == 1
    ensures !r.initialized && r.mode == NotListening && r.commands == []
  {
    Recog(hotword, 1, false, false, false, NotListening, 0, [])
  }

  /** The counter part of `resume()` once initialised: one pause undone,
      if any is outstanding. */
  function ResumeCounter(r: Recog): Recog
  {
    if r.pauseCount != 0 then r.(pauseCount := r.pauseCount - 1) else r
  }

  /** `initialize()`: the first call starts the event loop and resumes
      once; later calls change nothing. */
  function Initialize(r: Recog): (r': Recog)
    ensures r'.initialized && r'.hotword == r.hotword && r'.mode == r.mode
    ensures r'.commands == r.commands && r'.waitingSeconds == r.waitingSeconds
    ensures r.initialized ==> r' == r
    ensures !r.initialized ==> r'.threadContinue
    ensures r.pauseCount >= 0 ==>
      r'.pauseCount == if !r.initialized && r.pauseCount > 0 then r.pauseCount - 1 else r.pauseCount
    ensures Valid(r) ==> Valid(r')
  {
    if r.initialized then r
    else ResumeCounter(r.(initialized := true, threadContinue := true))
  }

  /** `pause()`: initialises on first use, then counts one more pause. */
  function Pause(r: Recog): (r': Recog)
    ensures r'.initialized && r'.commands == r.commands
    ensures r'.pauseCount == Initialize(r).pauseCount + 1
    ensures r.initialized ==> r'.pauseCount == r.pauseCount + 1
    ensures Valid(r) ==> Valid(r') && r'.pauseCount >= 1
  {
    var ri := Initialize(r);
    ri.(pauseCount := ri.pauseCount + 1)
  }

  /** `resume()`: initialises on first use, then undoes one outstanding
      pause; with none outstanding it does nothing more. */
  function Resume(r: Recog): (r': Recog)
    ensures r'.initialized && r'.commands == r.commands
    ensures r.initialized && r.pauseCount > 0 ==> r'.pauseCount == r.pauseCount - 1
    ensures r.initialized && r.pauseCount == 0 ==> r' == r
    ensures Valid(r) ==> Valid(r')
  {
    ResumeCounter(Initialize(r))
  }

  /** The first operation on a new recogniser undoes the constructor's
      pause: after it the count is zero, or one for `pause()` itself. */
  lemma FirstUseUndoesConstructorPause(hotword: string)
    ensures Initialize(New(hotword)).pauseCount == 0
    ensures Resume(New(hotword)).pauseCount == 0
    ensures Pause(New(hotword)).pauseCount == 1
    ensures Resume(Pause(New(hotword))).pauseCount == 0
  {
  }

  function PauseTimes(r: Recog, n: nat): Recog
  {
    if n == 0 then r else Pause(PauseTimes(r, n - 1))
  }

  function ResumeTimes(r: Recog, n: nat): Recog
  {
    if n == 0 then r else Resume(ResumeTimes(r, n - 1))
  }

  lemma {:induction false} PauseTimesCount(r: Recog, n: nat)
    requires r.initialized
    ensures PauseTimes(r, n).initialized
    ensures PauseTimes(r, n).pauseCount == r.pauseCount + n
  {
    if n > 0 {
      PauseTimesCount(r, n - 1);
    }
  }

  lemma {:induction false} ResumeTimesCount(r: Recog, n: nat)
    requires r.initialized && r.pauseCount >= 0
    ensures ResumeTimes(r, n).initialized
    ensures ResumeTimes(r, n).pauseCount == if r.pauseCount >= n then r.pauseCount - n else 0
  {
    if n > 0 {
      ResumeTimesCount(r, n - 1);
    }
  }

  /** Pauses and resumes pair up: `n` pauses followed by `n` resumes leave
      the count where it was, and surplus resumes never drive it below
      zero. */
  lemma {:induction false} PauseResumeBalanced(r: Recog, n: nat, extra: nat)
    requires r.initialized && r.pauseCount >= 0
    ensures ResumeTimes(PauseTimes(r, n), n).pauseCount == r.pauseCount
    ensures ResumeTimes(r, r.pauseCount + extra).pauseCount == 0
  {
    PauseTimesCount(r, n);
    ResumeTimesCount(PauseTimes(r, n), n);
    ResumeTimesCount(r, r.pauseCount + extra);
  }

  /** Storing a split command line is a map update that keeps the entries
      sorted; with the corrected splitter it keeps every command stable. */
  lemma InsertParsed(sp: Splitter, es: seq<Entry<RecogCommand>>, k: string, s: string)
    ensures Sorted(es) ==> Sorted(Insert(es, k, Split(sp, s)))
    ensures AsMap(Insert(es, k, Split(sp, s))) == AsMap(es)[k := Split(sp, s)]
    ensures sp == Corrected && Stable(es) ==> Stable(Insert(es, k, Split(sp, s)))
  {
    var c := Split(sp, s);
    if Sorted(es) {
      InsertSorted(es, k, c);
    }
    InsertAsMap(es, k, c);
    if sp == Corrected {
      ParseFacts(s);
      InsertStable(es, k, c);
    }
  }

  /** Storing a reparsable command keeps every stored command stable. */
  lemma InsertStable(es: seq<Entry<RecogCommand>>, k: string, v: RecogCommand)
    requires Reparsable(v)
    ensures Stable(es) ==> Stable(Insert(es, k, v))
  {
    StableMembers(es);
    StableMembers(Insert(es, k, v));
  }

  /** Erasing keeps every remaining command stable. */
  lemma EraseStable(es: seq<Entry<RecogCommand>>, k: string)
    ensures Stable(es) ==> Stable(Erase(es, k))
  {
    StableMembers(es);
    StableMembers(Erase(es, k));
  }

  /** `AddString(str, cmdline)`: initialises on first use; with an empty
      phrase or command line it stops there; otherwise, once the five
      engine calls succeed, the phrase maps to the split command line,
      replacing any earlier command for the same phrase. */
  function AddString(sp: Splitter, r: Recog, str: string, cmdline: string, accepted: nat): (o: Step)
    ensures o.recog.initialized && o.recog.pauseCount == Initialize(r).pauseCount
    ensures str == [] || cmdline == [] ==> o == Step(Initialize(r), false)
    ensures str != [] && cmdline != [] ==> (o.threw <==> accepted < AddStringCalls)
    ensures Sorted(r.commands) ==> Sorted(o.recog.commands)
    ensures Sorted(r.commands) ==>
      AsMap(o.recog.commands) ==
        if str != [] && cmdline != [] && !o.threw then AsMap(r.commands)[str := Split(sp, cmdline)]
        else AsMap(r.commands)
    ensures Valid(r) ==> Valid(o.recog)
    ensures sp == Corrected && Stable(r.commands) ==> Stable(o.recog.commands)
  {
    var ri := Initialize(r);
    if str == [] || cmdline == [] then Step(ri, false)
    else if accepted < AddStringCalls then Step(ri, true)
    else
      InsertParsed(sp, ri.commands, str, cmdline);
      Step(ri.(commands := Insert(ri.commands, str, Split(sp, cmdline))), false)
  }

  /** `AddString(str, prog, param)`: with an empty program or phrase nothing
      happens, not even initialisation; otherwise program and arguments are
      joined by one space and added as a command line. */
  function AddStringParts(sp: Splitter, r: Recog, str: string, prog: string, param: string, accepted: nat): (o: Step)
    ensures prog == [] || str == [] ==> o == Step(r, false)
    ensures prog != [] && str != [] ==> (o.threw <==> accepted < AddStringCalls)
    ensures Valid(r) ==> Valid(o.recog)
    ensures sp == Corrected && Stable(r.commands) ==> Stable(o.recog.commands)
    ensures Sorted(r.commands) && prog != [] && str != [] && !o.threw ==>
      AsMap(o.recog.commands) == AsMap(r.commands)[str := Split(sp, Commands.ComposeCmdline(prog, param))]
  {
    if prog != [] && str != [] then AddString(sp, r, str, Commands.ComposeCmdline(prog, param), accepted)
    else Step(r, false)
  }

  /** The command `AddString(str, prog, param)` stores for a program and
      arguments the splitter can tell apart: as given by the corrected
      splitter; as written, the arguments gain the separating space. */
  function StoredParts(sp: Splitter, prog: string, param: string): RecogCommand
  {
    if sp == AsWritten && param != [] then RecogCommand(prog, " " + param) else RecogCommand(prog, param)
  }

  /** Splitting the joined command line gives `StoredParts`. */
  lemma SplitParts(sp: Splitter, prog: string, param: string)
    requires Reparsable(RecogCommand(prog, param))
    ensures Split(sp, Commands.ComposeCmdline(prog, param)) == StoredParts(sp, prog, param)
    ensures sp == AsWritten && param != [] ==> Cmdline(StoredParts(sp, prog, param)) == prog + "  " + param
  {
    var c := RecogCommand(prog, param);
    ParseOfCmdline(c);
    ParseAsWrittenOfCmdline(c);
  }

  /** A program and arguments that the splitter can tell apart are stored
      as `StoredParts` says, and the phrase is listed with the command line
      of what was stored: as written, program and arguments then stand two
      spaces apart. */
  lemma AddStringPartsStoresCommand(sp: Splitter, r: Recog, str: string, prog: string, param: string, accepted: nat)
    requires Valid(r) && str != [] && accepted >= AddStringCalls
    requires Reparsable(RecogCommand(prog, param)) && prog != []
    ensures var o := AddStringParts(sp, r, str, prog, param, accepted);
      !o.threw && AsMap(o.recog.commands) == AsMap(r.commands)[str := StoredParts(sp, prog, param)]
    ensures var o := AddStringParts(sp, r, str, prog, param, accepted);
      exists i :: 0 <= i < |o.recog.commands| &&
        GetStrings(o.recog)[2 * i] == str && GetStrings(o.recog)[2 * i + 1] == Cmdline(StoredParts(sp, prog, param))
    ensures sp == AsWritten && param != [] ==>
      Cmdline(StoredParts(sp, prog, param)) == prog + "  " + param
  {
    SplitParts(sp, prog, param);
    var o := AddStringParts(sp, r, str, prog, param, accepted);
    GetStringsListsMap(o.recog);
    assert str in AsMap(o.recog.commands);
  }

  /** The flattened listing of the map: phrase and command line of each
      entry, in map order. */
  function ListStrings(es: seq<Entry<RecogCommand>>): (s: seq<string>)
    ensures |s| == 2 * |es|
  {
    if es == [] then [] else [es[0].key, Cmdline(es[0].value)] + ListStrings(es[1..])
  }

  /** Entry `i` appears at positions `2 * i` and `2 * i + 1`. */
  lemma {:induction false} ListStringsAt(es: seq<Entry<RecogCommand>>, i: nat)
    requires i < |es|
    ensures ListStrings(es)[2 * i] == es[i].key
    ensures ListStrings(es)[2 * i + 1] == Cmdline(es[i].value)
  {
    if i == 0 {
      assert ListStrings(es) == [es[0].key, Cmdline(es[0].value)] + ListStrings(es[1..]);
    } else {
      ListStringsAt(es[1..], i - 1);
      ListStringsStep(es, 2 * (i - 1));
      ListStringsStep(es, 2 * (i - 1) + 1);
    }
  }

  /** Past the first entry's two strings, the listing is the listing of
      the remaining entries. */
  lemma ListStringsStep(es: seq<Entry<RecogCommand>>, j: nat)
    requires es != [] && j < 2 * (|es| - 1)
    ensures ListStrings(es)[j + 2] == ListStrings(es[1..])[j]
  {
  }

  /** `GetStrings()`: even positions hold the phrases, each followed by its
      command line. */
  function GetStrings(r: Recog): (s: seq<string>)
    ensures |s| == 2 * |r.commands|
  {
    ListStrings(r.commands)
  }

  /** The listing shows exactly the map: every phrase once, in ascending
      order, each followed by the command line of its command. */
  lemma GetStringsListsMap(r: Recog)
    requires Sorted(r.commands)
    ensures var s := GetStrings(r);
      forall k :: k in AsMap(r.commands) ==>
        exists i :: 0 <= i < |r.commands| && s[2 * i] == k && s[2 * i + 1] == Cmdline(AsMap(r.commands)[k])
    ensures var s := GetStrings(r);
      forall i :: 0 <= i < |r.commands| ==> s[2 * i] in AsMap(r.commands) && s[2 * i + 1] == Cmdline(AsMap(r.commands)[s[2 * i]])
    ensures var s := GetStrings(r);
      forall i, j :: 0 <= i < j < |r.commands| ==> Less(s[2 * i], s[2 * j])
  {
    var es := r.commands;
    var s := GetStrings(r);
    forall i | 0 <= i < |es|
      ensures s[2 * i] in AsMap(es) && s[2 * i + 1] == Cmdline(AsMap(es)[s[2 * i]])
    {
      AsMapAt(es, i);
      ListStringsAt(es, i);
    }
    forall k | k in AsMap(es)
      ensures exists i :: 0 <= i < |es| && s[2 * i] == k && s[2 * i + 1] == Cmdline(AsMap(es)[k])
    {
      var i :| 0 <= i < |es| && es[i].key == k;
      AsMapAt(es, i);
      ListStringsAt(es, i);
    }
    forall i, j | 0 <= i < j < |es| ensures Less(s[2 * i], s[2 * j]) {
      ListStringsAt(es, i);
      ListStringsAt(es, j);
    }
  }


  /** An entry that `refresh_rules` re-adds: `AddString` skips an empty
      phrase or an empty command line. */
  predicate NeedsReadd(e: Entry<RecogCommand>)
  {
    e.key != [] && Cmdline(e.value) != []
  }

  /** The entry a re-add leaves behind: an entry `AddString` accepts holds
      the split of its own command line; any other is skipped. */
  function ReaddEntry(sp: Splitter, e: Entry<RecogCommand>): Entry<RecogCommand>
  {
    if NeedsReadd(e) then Entry(e.key, Reparse(sp, e.value)) else e
  }

  /** Engine calls the loop of `refresh_rules` makes when none fails:
      five for each entry it re-adds. */
  function ReaddCalls(es: seq<Entry<RecogCommand>>): nat
  {
    if es == [] then 0 else (if NeedsReadd(es[0]) then AddStringCalls else 0) + ReaddCalls(es[1..])
  }

  /** The loop of `refresh_rules`: each entry in map order is added again
      from its own command line, which overwrites that entry in place
      (`InsertExisting`); the first failing engine call stops the loop.
      `ReaddAllKeys` states that every entry keeps its phrase. */
  function ReaddAll(sp: Splitter, es: seq<Entry<RecogCommand>>, accepted: nat): (r: (seq<Entry<RecogCommand>>, bool))
    ensures |r.0| == |es|
  {
    if es == [] then ([], false)
    else if NeedsReadd(es[0]) && accepted < AddStringCalls then (es, true)
    else
      var budget := if NeedsReadd(es[0]) then accepted - AddStringCalls else accepted;
      var tail := ReaddAll(sp, es[1..], budget);
      ([ReaddEntry(sp, es[0])] + tail.0, tail.1)
  }

  /** The loop keeps every phrase in its place. */
  lemma {:induction false} ReaddAllKeys(sp: Splitter, es: seq<Entry<RecogCommand>>, accepted: nat)
    ensures forall i :: 0 <= i < |es| ==> ReaddAll(sp, es, accepted).0[i].key == es[i].key
  {
    if es != [] && !(NeedsReadd(es[0]) && accepted < AddStringCalls) {
      var budget := if NeedsReadd(es[0]) then accepted - AddStringCalls else accepted;
      ReaddAllKeys(sp, es[1..], budget);
      ReaddCons(es, ReaddEntry(sp, es[0]), ReaddAll(sp, es[1..], budget).0);
    }
  }

  /** The phrases of `ReaddAll` carry over from the tail to the whole
      sequence. */
  lemma ReaddCons(es: seq<Entry<RecogCommand>>, head: Entry<RecogCommand>, t: seq<Entry<RecogCommand>>)
    requires es != [] && |t| == |es| - 1 && head.key == es[0].key
    requires forall i :: 0 <= i < |t| ==> t[i].key == es[1..][i].key
    ensures var r := [head] + t;
      forall i :: 0 <= i < |es| ==> r[i].key == es[i].key
  {
    var r := [head] + t;
    assert forall i :: 1 <= i < |es| ==> r[i] == t[i - 1] && es[i] == es[1..][i - 1];
  }

  /** The loop throws exactly when the budget does not cover the calls of
      every entry it re-adds. */
  lemma {:induction false} ReaddAllThrows(sp: Splitter, es: seq<Entry<RecogCommand>>, accepted: nat)
    ensures ReaddAll(sp, es, accepted).1 <==> accepted < ReaddCalls(es)
  {
    if es != [] && !(NeedsReadd(es[0]) && accepted < AddStringCalls) {
      var budget := if NeedsReadd(es[0]) then accepted - AddStringCalls else accepted;
      ReaddAllThrows(sp, es[1..], budget);
    }
  }

  /** When the loop does not throw, every entry holds what its re-add
      leaves. */
  lemma {:induction false} ReaddAllComplete(sp: Splitter, es: seq<Entry<RecogCommand>>, accepted: nat)
    ensures !ReaddAll(sp, es, accepted).1 ==>
      forall i :: 0 <= i < |es| ==> ReaddAll(sp, es, accepted).0[i] == ReaddEntry(sp, es[i])
  {
    if es != [] && !(NeedsReadd(es[0]) && accepted < AddStringCalls) {
      var budget := if NeedsReadd(es[0]) then accepted - AddStringCalls else accepted;
      ReaddAllComplete(sp, es[1..], budget);
      var o := ReaddAll(sp, es, accepted);
      var t := ReaddAll(sp, es[1..], budget);
      assert o == ([ReaddEntry(sp, es[0])] + t.0, t.1);
      if !o.1 {
        forall i | 1 <= i < |es| ensures o.0[i] == ReaddEntry(sp, es[i]) {
          assert o.0[i] == t.0[i - 1] && es[i] == es[1..][i - 1];
        }
      }
    }
  }

  /** The tail of stable entries is stable, and the corrected re-add of a
      stable head leaves it as it is. */
  lemma StableSplit(es: seq<Entry<RecogCommand>>)
    requires Stable(es) && es != []
    ensures Stable(es[1..])
    ensures ReaddEntry(Corrected, es[0]) == es[0]
  {
    if NeedsReadd(es[0]) {
      ParseOfCmdline(es[0].value);
    }
  }

  /** With the corrected splitter the loop changes no stable entry. */
  lemma {:induction false} ReaddAllStable(es: seq<Entry<RecogCommand>>, accepted: nat)
    ensures Stable(es) ==> ReaddAll(Corrected, es, accepted).0 == es
  {
    if Stable(es) && es != [] && !(NeedsReadd(es[0]) && accepted < AddStringCalls) {
      var budget := if NeedsReadd(es[0]) then accepted - AddStringCalls else accepted;
      StableSplit(es);
      ReaddAllStable(es[1..], budget);
      assert ReaddAll(Corrected, es, accepted).0 == [es[0]] + ReaddAll(Corrected, es[1..], budget).0;
      assert es == [es[0]] + es[1..];
    }
  }

  /** `refresh_rules()`: rebuilds both rules and re-adds every command;
      only the commands can change, and every phrase stays where it was. */
  function RefreshRules(sp: Splitter, r: Recog, accepted: nat): (o: Step)
    ensures o.recog == r.(commands := o.recog.commands)
    ensures |o.recog.commands| == |r.commands|
    ensures forall i :: 0 <= i < |r.commands| ==> o.recog.commands[i].key == r.commands[i].key
  {
    if accepted < RefreshSetupCalls then Step(r, true)
    else
      ReaddAllKeys(sp, r.commands, accepted - RefreshSetupCalls);
      var t := ReaddAll(sp, r.commands, accepted - RefreshSetupCalls);
      Step(r.(commands := t.0), t.1)
  }

  /** The refresh throws exactly when the budget does not cover its eleven
      set-up calls and the calls of every re-add. */
  lemma RefreshRulesThrows(sp: Splitter, r: Recog, accepted: nat)
    ensures RefreshRules(sp, r, accepted).threw <==> accepted < RefreshSetupCalls + ReaddCalls(r.commands)
  {
    var o := RefreshRules(sp, r, accepted);
    if accepted >= RefreshSetupCalls {
      var t := ReaddAll(sp, r.commands, accepted - RefreshSetupCalls);
      assert o == Step(r.(commands := t.0), t.1);
      ReaddAllThrows(sp, r.commands, accepted - RefreshSetupCalls);
    }
  }

  /** When the refresh does not throw, every command with a phrase and a
      command line holds the split of its own command line. */
  lemma RefreshRulesComplete(sp: Splitter, r: Recog, accepted: nat)
    requires !RefreshRules(sp, r, accepted).threw
    ensures forall i :: 0 <= i < |r.commands| ==>
      RefreshRules(sp, r, accepted).recog.commands[i] == ReaddEntry(sp, r.commands[i])
  {
    ReaddAllComplete(sp, r.commands, accepted - RefreshSetupCalls);
  }

  /** With the corrected splitter and stable commands the refresh changes
      nothing, whether or not it throws. */
  lemma RefreshRulesStable(r: Recog, accepted: nat)
    requires Stable(r.commands)
    ensures RefreshRules(Corrected, r, accepted).recog == r
  {
    if accepted >= RefreshSetupCalls {
      ReaddAllStable(r.commands, accepted - RefreshSetupCalls);
    }
    RefreshRulesUnchanged(Corrected, r, accepted);
  }

  lemma RefreshRulesUnchanged(sp: Splitter, r: Recog, accepted: nat)
    requires accepted >= RefreshSetupCalls ==> ReaddAll(sp, r.commands, accepted - RefreshSetupCalls).0 == r.commands
    ensures RefreshRules(sp, r, accepted).recog == r
  {
  }

  /** With the splitter as written, a refresh that does not throw rewrites
      every command the splitter stored with arguments: the arguments get
      one more space in front. */
  lemma RefreshAsWrittenGrows(r: Recog, accepted: nat, i: nat, s: string)
    requires !RefreshRules(AsWritten, r, accepted).threw
    requires i < |r.commands| && r.commands[i].key != []
    requires r.commands[i].value == ParseAsWritten(s) && ParseAsWritten(s).param != []
    ensures var c := ParseAsWritten(s);
      RefreshRules(AsWritten, r, accepted).recog.commands[i] == Entry(r.commands[i].key, RecogCommand(c.exec, " " + c.param))
  {
    RefreshRulesComplete(AsWritten, r, accepted);
    ParseClosesQuotes(s);
    ParseDropsSeparator(s);
    ParseAsWrittenReparseGrows(s);
  }

  /** Entries with the same phrases in the same places are sorted together. */
  lemma SameKeysSorted(es: seq<Entry<RecogCommand>>, t: seq<Entry<RecogCommand>>)
    requires |t| == |es| && forall i :: 0 <= i < |es| ==> t[i].key == es[i].key
    ensures Sorted(es) ==> Sorted(t)
    ensures Keys(t) == Keys(es)
  {
    forall k | k in Keys(t) ensures k in Keys(es) {
      var i :| 0 <= i < |t| && t[i].key == k;
      assert es[i].key == k;
    }
    forall k | k in Keys(es) ensures k in Keys(t) {
      var i :| 0 <= i < |es| && es[i].key == k;
      assert t[i].key == k;
    }
  }

  /** `remove_by_phrase(phrase)`: erases the entry with exactly this phrase
      and, only if there was one, refreshes the rules. With the corrected
      splitter on a stable state the map loses just that phrase;
      `RemoveByPhraseReadds` states what it keeps in general. */
  function RemoveByPhrase(sp: Splitter, r: Recog, phrase: string, accepted: nat): (o: Step)
    ensures phrase !in Keys(r.commands) ==> o == Step(r, false)
    ensures Keys(o.recog.commands) == Keys(r.commands) - {phrase}
    ensures phrase in Keys(r.commands) ==>
      (o.threw <==> accepted < RefreshSetupCalls + ReaddCalls(Erase(r.commands, phrase)))
    ensures Valid(r) ==> Valid(o.recog)
    ensures sp == Corrected && Valid(r) && Stable(r.commands) ==>
      Stable(o.recog.commands) && AsMap(o.recog.commands) == AsMap(r.commands) - {phrase}
  {
    if IndexOf(r.commands, phrase) == |r.commands| then Step(r, false)
    else
      EraseThenRefresh(sp, r, phrase, accepted);
      RefreshRules(sp, r.(commands := Erase(r.commands, phrase)), accepted)
  }

  /** Refreshing after an erase keeps the remaining phrases and the
      invariant, and with the corrected splitter on a stable state it keeps
      the remaining commands too. */
  lemma EraseThenRefresh(sp: Splitter, r: Recog, phrase: string, accepted: nat)
    ensures var o := RefreshRules(sp, r.(commands := Erase(r.commands, phrase)), accepted);
      && Keys(o.recog.commands) == Keys(r.commands) - {phrase}
      && (o.threw <==> accepted < RefreshSetupCalls + ReaddCalls(Erase(r.commands, phrase)))
      && (Valid(r) ==> Valid(o.recog))
      && (sp == Corrected && Valid(r) && Stable(r.commands) ==>
            Stable(o.recog.commands) && AsMap(o.recog.commands) == AsMap(r.commands) - {phrase})
  {
    var es := Erase(r.commands, phrase);
    var r' := r.(commands := es);
    var o := RefreshRules(sp, r', accepted);
    RefreshRulesThrows(sp, r', accepted);
    SameKeysSorted(es, o.recog.commands);
    if Valid(r) {
      EraseSorted(r.commands, phrase);
      if sp == Corrected && Stable(r.commands) {
        EraseAsMap(r.commands, phrase);
        EraseStable(r.commands, phrase);
        RefreshRulesStable(r', accepted);
      }
    }
  }

  /** On a valid state, a removal whose refresh does not throw leaves every
      other phrase holding what the re-add leaves for its command. */
  lemma RemoveByPhraseReadds(sp: Splitter, r: Recog, phrase: string, accepted: nat)
    requires Valid(r) && phrase in Keys(r.commands)
    requires !RemoveByPhrase(sp, r, phrase, accepted).threw
    ensures var m := AsMap(r.commands);
      var m' := AsMap(RemoveByPhrase(sp, r, phrase, accepted).recog.commands);
      m'.Keys == m.Keys - {phrase} &&
      forall k :: k in m' ==> m'[k] == ReaddEntry(sp, Entry(k, m[k])).value
  {
    var es := Erase(r.commands, phrase);
    var o := RemoveByPhrase(sp, r, phrase, accepted);
    assert o == RefreshRules(sp, r.(commands := es), accepted);
    RefreshRulesComplete(sp, r.(commands := es), accepted);
    EraseSorted(r.commands, phrase);
    EraseAsMap(r.commands, phrase);
    var m := AsMap(r.commands);
    var m' := AsMap(o.recog.commands);
    forall k | k in m' ensures m'[k] == ReaddEntry(sp, Entry(k, m[k])).value {
      var i :| 0 <= i < |o.recog.commands| && o.recog.commands[i].key == k;
      AsMapAt(o.recog.commands, i);
      AsMapAt(es, i);
      assert es[i] == Entry(k, m[k]);
    }
  }

  /** With the splitter as written, removing one phrase rewrites the
      command of every other phrase whose stored command has arguments:
      they get one more space in front. */
  lemma RemoveByPhraseAsWrittenGrows(r: Recog, phrase: string, k: string, s: string, accepted: nat)
    requires Valid(r) && phrase in Keys(r.commands) && k != phrase && k != []
    requires k in AsMap(r.commands) && AsMap(r.commands)[k] == ParseAsWritten(s)
    requires ParseAsWritten(s).param != []
    requires !RemoveByPhrase(AsWritten, r, phrase, accepted).threw
    ensures var c := ParseAsWritten(s);
      var m' := AsMap(RemoveByPhrase(AsWritten, r, phrase, accepted).recog.commands);
      k in m' && m'[k] == RecogCommand(c.exec, " " + c.param) && m'[k] != c
  {
    var c := ParseAsWritten(s);
    RemoveByPhraseReadds(AsWritten, r, phrase, accepted);
    ParseClosesQuotes(s);
    ParseDropsSeparator(s);
    ParseAsWrittenReparseGrows(s);
    assert |" " + c.param| != |c.param|;
  }

  /** Adding a new phrase and then removing it leaves the phrases as they
      were; with the corrected splitter on a stable state it leaves the map
      as it was. */
  lemma AddThenRemove(sp: Splitter, r: Recog, str: string, cmdline: string, a1: nat, a2: nat)
    requires Valid(r) && str !in Keys(r.commands)
    ensures var o := AddString(sp, r, str, cmdline, a1);
      Keys(RemoveByPhrase(sp, o.recog, str, a2).recog.commands) == Keys(r.commands)
    ensures sp == Corrected && Stable(r.commands) ==>
      var o := AddString(sp, r, str, cmdline, a1);
      AsMap(RemoveByPhrase(sp, o.recog, str, a2).recog.commands) == AsMap(r.commands)
  {
    var m := AsMap(r.commands);
    var o := AddString(sp, r, str, cmdline, a1);
    assert str !in m;
    UpdateThenRemove(m, str, Split(sp, cmdline));
    var o2 := RemoveByPhrase(sp, o.recog, str, a2);
    assert Keys(o.recog.commands) == AsMap(o.recog.commands).Keys;
  }

  lemma UpdateThenRemove<V>(m: map<string, V>, k: string, v: V)
    requires k !in m
    ensures m[k := v] - {k} == m && m - {k} == m
  {
  }

  /** Position of the first entry, in map order, whose command equals `c`. */
  function FindCommand(es: seq<Entry<RecogCommand>>, c: RecogCommand): (i: nat)
    ensures i <= |es|
    ensures i < |es| ==> Eq(es[i].value, c)
    ensures forall j :: 0 <= j < i ==> !Eq(es[j].value, c)
  {
    if es == [] then 0
    else if Eq(es[0].value, c) then 0
    else 1 + FindCommand(es[1..], c)
  }

  /** `remove_by_command(cmdline)`: splits the command line, erases the
      first entry in map order holding an equal command and, only if there
      was one, refreshes the rules. */
  function RemoveByCommand(sp: Splitter, r: Recog, cmdline: string, accepted: nat): (o: Step)
    ensures (forall e :: e in r.commands ==> e.value != Split(sp, cmdline)) ==> o == Step(r, false)
    ensures Valid(r) ==> Valid(o.recog)
    ensures sp == Corrected && Valid(r) && Stable(r.commands) ==> Stable(o.recog.commands)
  {
    var i := FindCommand(r.commands, Split(sp, cmdline));
    if i == |r.commands| then Step(r, false)
    else RemoveByPhrase(sp, r, r.commands[i].key, accepted)
  }

  /** On a valid state, removing by command line erases the phrase that
      comes first in map order among those mapped to the split command
      line, and keeps every other phrase; with the corrected splitter on a
      stable state, every other phrase keeps its command too. */
  lemma RemoveByCommandErasesFirstMatch(sp: Splitter, r: Recog, cmdline: string, accepted: nat)
    requires Valid(r)
    requires exists e :: e in r.commands && e.value == Split(sp, cmdline)
    ensures var m := AsMap(r.commands);
      var o := RemoveByCommand(sp, r, cmdline, accepted);
      exists k :: k in m && m[k] == Split(sp, cmdline) &&
        Keys(o.recog.commands) == m.Keys - {k} &&
        (sp == Corrected && Stable(r.commands) ==> AsMap(o.recog.commands) == m - {k}) &&
        forall k' :: k' in m && Less(k', k) ==> m[k'] != Split(sp, cmdline)
  {
    var es := r.commands;
    var c := Split(sp, cmdline);
    var i := FindCommand(es, c);
    var e :| e in es && e.value == c;
    var w :| 0 <= w < |es| && es[w] == e;
    assert i < |es|;
    FirstMatchIsLeast(es, c);
    assert RemoveByCommand(sp, r, cmdline, accepted) == RemoveByPhrase(sp, r, es[i].key, accepted);
  }

  /** In a sorted sequence, the first entry holding `c` has the least
      phrase among the entries holding `c`. */
  lemma FirstMatchIsLeast(es: seq<Entry<RecogCommand>>, c: RecogCommand)
    requires Sorted(es) && FindCommand(es, c) < |es|
    ensures var k := es[FindCommand(es, c)].key;
      k in AsMap(es) && AsMap(es)[k] == c &&
      forall k' :: k' in AsMap(es) && Less(k', k) ==> AsMap(es)[k'] != c
  {
    var i := FindCommand(es, c);
    var k := es[i].key;
    AsMapAt(es, i);
    forall k' | k' in AsMap(es) && Less(k', k) ensures AsMap(es)[k'] != c {
      var j :| 0 <= j < |es| && es[j].key == k';
      AsMapAt(es, j);
      if j > i {
        LessAsymmetric(k', k);
      } else if j == i {
        LessIrreflexive(k);
      }
    }
  }

  /** With the splitter as written, removing by the command line that
      `GetStrings` lists for a phrase whose command has arguments never
      removes that phrase: the line splits into a command with one more
      space in front of the arguments. */
  lemma RemoveListedAsWrittenMisses(r: Recog, k: string, s: string, accepted: nat)
    requires Valid(r) && k in AsMap(r.commands)
    requires AsMap(r.commands)[k] == ParseAsWritten(s) && ParseAsWritten(s).param != []
    ensures k in Keys(RemoveByCommand(AsWritten, r, Cmdline(ParseAsWritten(s)), accepted).recog.commands)
  {
    var c := ParseAsWritten(s);
    var es := r.commands;
    ParseAsWrittenReparseGrows(s);
    var d := Split(AsWritten, Cmdline(c));
    assert d != c by {
      assert |d.param| != |c.param|;
    }
    var i := FindCommand(es, d);
    if i < |es| {
      AsMapAt(es, i);
      assert es[i].key != k;
    }
  }

  /** With the corrected splitter on a stable state, removing by the
      command line listed for a phrase erases the least phrase holding the
      same command, so that phrase itself when no other holds it. */
  lemma RemoveListedCorrectedErases(r: Recog, k: string, accepted: nat)
    requires Valid(r) && Stable(r.commands) && k in AsMap(r.commands)
    ensures var m := AsMap(r.commands);
      var o := RemoveByCommand(Corrected, r, Cmdline(m[k]), accepted);
      exists k' :: k' in m && m[k'] == m[k] && !Less(k, k') && AsMap(o.recog.commands) == m - {k'}
  {
    var es := r.commands;
    var m := AsMap(es);
    var i :| 0 <= i < |es| && es[i].key == k;
    AsMapAt(es, i);
    StableMembers(es);
    assert es[i] in es;
    ParseOfCmdline(m[k]);
    assert es[i].value == Split(Corrected, Cmdline(m[k]));
    RemoveByCommandErasesFirstMatch(Corrected, r, Cmdline(m[k]), accepted);
  }



  // ---------------------------------------------------------------------
  // The event loop
  // ---------------------------------------------------------------------

  /** What the event loop observes in one iteration: a one-second wait
      that timed out, or a recognised phrase. */
  datatype Event = Timeout | Heard(text: string)

  /** One iteration: the next state, whether the loop ended, and the
      command started on its own thread, if one is. */
  datatype Tick = Tick(recog: Recog, exit: bool, launch: Option<RecogCommand>)

  /** One iteration of `EventThread`'s loop. A recognised phrase that is
      neither the hotword nor the shutdown phrase is looked up with
      `operator[]`, which inserts an empty command for an unknown phrase;
      `ExecCommand` starts a command only when it has a program. */
  function EventStep(r: Recog, ev: Event): (t: Tick)
    requires r.initialized && !r.threadFinished
    ensures t.exit <==> t.recog.threadFinished
    ensures t.exit ==> t.launch.None? && t.recog == r.(threadFinished := true)
    ensures t.exit <==> !r.threadContinue || (ev.Heard? && ev.text != r.hotword && ev.text == ShutdownPhrase)
    ensures t.recog.hotword == r.hotword && t.recog.pauseCount == r.pauseCount
    ensures t.recog.initialized && t.recog.threadContinue == r.threadContinue
    ensures !t.exit && t.recog.mode == ListeningForCommand ==>
      (ev.Heard? && ev.text == r.hotword) || (ev.Timeout? && r.mode == ListeningForCommand)
    ensures r.threadContinue && ev.Heard? && ev.text == r.hotword ==>
      !t.exit && t.recog.mode == ListeningForCommand && t.recog.commands == r.commands && t.launch.None?
    ensures r.threadContinue && ev.Timeout? && r.mode != ListeningForCommand ==>
      !t.exit && t.recog.mode == r.mode && t.recog.waitingSeconds == 0
    ensures ev.Timeout? ==> t.recog.commands == r.commands && t.launch.None?
    ensures r.threadContinue && ev.Heard? ==> t.recog.waitingSeconds == r.waitingSeconds
    ensures Sorted(r.commands) && t.launch.Some? ==>
      ev.Heard? && ev.text in AsMap(r.commands) && t.launch.value == AsMap(r.commands)[ev.text] &&
      t.launch.value.exec != []
    ensures (Sorted(r.commands) && r.threadContinue && ev.Heard? && ev.text != r.hotword &&
             ev.text != ShutdownPhrase && ev.text in AsMap(r.commands) && AsMap(r.commands)[ev.text].exec != []) ==>
      t.launch == Some(AsMap(r.commands)[ev.text])
    ensures Sorted(r.commands) && ev.Heard? && ev.text != r.hotword && !t.exit ==>
      t.recog.mode == ListeningForHotword && Sorted(t.recog.commands) &&
      AsMap(t.recog.commands) ==
        if ev.text in AsMap(r.commands) then AsMap(r.commands) else AsMap(r.commands)[ev.text := Empty()]
    ensures Valid(r) ==> Valid(t.recog)
    ensures Stable(r.commands) ==> Stable(t.recog.commands)
  {
    if !r.threadContinue then Tick(r.(threadFinished := true), true, None)
    else match ev
      case Timeout =>
        if r.mode == ListeningForCommand then
          if r.waitingSeconds + 1 == WatchdogSeconds then
            Tick(r.(mode := ListeningForHotword, waitingSeconds := 0), false, None)
          else
            Tick(r.(waitingSeconds := r.waitingSeconds + 1), false, None)
        else
          Tick(r.(waitingSeconds := 0), false, None)
      case Heard(text) =>
        if text == r.hotword then
          Tick(r.(mode := ListeningForCommand), false, None)
        else if text == ShutdownPhrase then
          Tick(r.(threadFinished := true), true, None)
        else
          var es := r.commands;
          var i := IndexOf(es, text);
          var cmd := if i < |es| then es[i].value else Empty();
          var es' := if i < |es| then es else Insert(es, text, Empty());
          var launch := if cmd.exec != [] then Some(cmd) else None;
          if Sorted(es) then
            if i < |es| then
              AsMapAt(es, i);
              Tick(r.(mode := ListeningForHotword, commands := es'), false, launch)
            else
              InsertSorted(es, text, Empty());
              InsertAsMap(es, text, Empty());
              InsertStable(es, text, Empty());
              Tick(r.(mode := ListeningForHotword, commands := es'), false, launch)
          else
            InsertStable(es, text, Empty());
            Tick(r.(mode := ListeningForHotword, commands := es'), false, launch)
  }

  /** `n` iterations in which the wait times out. */
  function Timeouts(r: Recog, n: nat): (r': Recog)
    requires r.initialized && !r.threadFinished && r.threadContinue
    ensures r'.initialized && !r'.threadFinished && r'.threadContinue
    ensures Valid(r) ==> Valid(r')
    decreases n
  {
    if n == 0 then r else Timeouts(EventStep(r, Timeout).recog, n - 1)
  }

  /** The command watchdog: listening for a command falls back to the
      hotword after the seconds left of the five, and not before. The
      count starts from the seconds already waited, which a recognised
      phrase does not reset. */
  lemma {:induction false} WatchdogFallsBack(r: Recog)
    requires Valid(r) && r.initialized && !r.threadFinished && r.threadContinue
    requires r.mode == ListeningForCommand
    ensures var left := WatchdogSeconds - r.waitingSeconds;
      Timeouts(r, left).mode == ListeningForHotword && Timeouts(r, left).waitingSeconds == 0
    ensures forall n: nat :: n < WatchdogSeconds - r.waitingSeconds ==> Timeouts(r, n).mode == ListeningForCommand
    decreases WatchdogSeconds - r.waitingSeconds
  {
    var next := EventStep(r, Timeout).recog;
    if r.waitingSeconds + 1 < WatchdogSeconds {
      WatchdogFallsBack(next);
      forall n: nat | n < WatchdogSeconds - r.waitingSeconds
        ensures Timeouts(r, n).mode == ListeningForCommand
      {
        if n > 0 {
          assert Timeouts(r, n) == Timeouts(next, n - 1);
        }
      }
    } else {
      assert Timeouts(r, 1) == Timeouts(next, 0);
    }
  }

  /** Hearing the hotword again while listening for a command does not
      restart the watchdog: it falls back after exactly the seconds left of
      the five, and not before. */
  lemma HotwordKeepsWatchdogCount(r: Recog)
    requires Valid(r) && r.initialized && !r.threadFinished && r.threadContinue
    requires r.mode == ListeningForCommand
    ensures var t := EventStep(r, Heard(r.hotword));
      var left := WatchdogSeconds - r.waitingSeconds;
      t.recog.waitingSeconds == r.waitingSeconds &&
      Timeouts(t.recog, left).mode == ListeningForHotword &&
      forall n: nat :: n < left ==> Timeouts(t.recog, n).mode == ListeningForCommand
  {
    WatchdogFallsBack(EventStep(r, Heard(r.hotword)).recog);
  }

  /** The hotword followed by a known phrase starts that phrase's command
      and returns to listening for the hotword, leaving the map as it was. */
  lemma HotwordThenCommand(r: Recog, text: string)
    requires Valid(r) && r.initialized && !r.threadFinished && r.threadContinue
    requires text != r.hotword && text != ShutdownPhrase
    requires text in AsMap(r.commands) && AsMap(r.commands)[text].exec != []
    ensures var t1 := EventStep(r, Heard(r.hotword));
      !t1.exit && t1.recog.mode == ListeningForCommand && t1.launch.None? &&
      var t2 := EventStep(t1.recog, Heard(text));
      !t2.exit && t2.recog.mode == ListeningForHotword &&
      t2.launch == Some(AsMap(r.commands)[text]) && t2.recog.commands == r.commands
  {
    var t1 := EventStep(r, Heard(r.hotword));
    var i := IndexOf(r.commands, text);
    AsMapAt(r.commands, i);
  }

  /** The shutdown phrase ends the loop in every mode, unless it is itself
      the hotword. */
  lemma ShutdownEndsLoop(r: Recog)
    requires r.initialized && !r.threadFinished && r.hotword != ShutdownPhrase
    ensures var t := EventStep(r, Heard(ShutdownPhrase));
      t.exit && t.launch.None? && t.recog.commands == r.commands
  {
  }

  /** An unknown phrase starts nothing but is remembered: it is listed
      afterwards with an empty command line. */
  lemma UnknownPhraseListed(r: Recog, text: string)
    requires Valid(r) && r.initialized && !r.threadFinished && r.threadContinue
    requires text != r.hotword && text != ShutdownPhrase && text !in Keys(r.commands)
    ensures var t := EventStep(r, Heard(text));
      t.launch.None? && !t.exit &&
      exists i :: 0 <= i < |t.recog.commands| && GetStrings(t.recog)[2 * i] == text && GetStrings(t.recog)[2 * i + 1] == []
  {
    var t := EventStep(r, Heard(text));
    GetStringsListsMap(t.recog);
    assert text in AsMap(t.recog.commands);
  }
}

=== FILE: recog_command.dfy ===
/** The older `Command` of Recog.hpp: a program and its argument string,
    built either from the two parts or by splitting one command line. */
module RecogCommands {
  import opened Util
  import Commands

  datatype RecogCommand = RecogCommand(exec: string, param: string)

  /** `Command()`: no program, no arguments. */
  function Empty(): (c: RecogCommand)
    ensures c.exec == [] && c.param == []
    ensures Cmdline(c) == []
  {
    RecogCommand([], [])
  }

  /** `cmdline()`: the same composition as `HNx::Command::cmdline()`. */
  function Cmdline(c: RecogCommand): (r: string)
    ensures r == [] <==> c.exec == []
  {
    Commands.ComposeCmdline(c.exec, c.param)
  }

  // ---------------------------------------------------------------------
  // Scanning a command line
  // ---------------------------------------------------------------------

  /** Index of the first character that is not a space, or `|s|`: the
      characters the splitter skips before it sets `firstchar`. */
  function Lead(s: string): (r: nat)
    ensures r <= |s|
    ensures forall j :: 0 <= j < r ==> s[j] == ' '
    ensures r < |s| ==> s[r] != ' '
  {
    match FindFirstNotSpace(s)
    case None => |s|
    case Some(i) => i
  }

  /** The `quoted` flag after reading character `c`. */
  function Toggle(quoted: bool, c: char): bool
  {
    if c == '"' then !quoted else quoted
  }

  /** The `quoted` flag after reading `s[i..j]`, starting from `quoted`. */
  function QuoteState(s: string, i: nat, j: nat, quoted: bool): bool
    requires i <= j <= |s|
    decreases j - i
  {
    if i == j then quoted else QuoteState(s, i + 1, j, Toggle(quoted, s[i]))
  }

  /** Where the splitting loop breaks when it starts at `i` with flag
      `quoted`: the first space read outside double quotes, or `|s|`. */
  function SplitPoint(s: string, i: nat, quoted: bool): (k: nat)
    requires i <= |s|
    ensures i <= k <= |s|
    ensures k < |s| ==> s[k] == ' ' && !QuoteState(s, i, k, quoted)
    ensures forall j :: i <= j < k && s[j] == ' ' ==> QuoteState(s, i, j, quoted)
    decreases |s| - i
  {
    if i == |s| then |s|
    else
      var q := Toggle(quoted, s[i]);
      if !q && s[i] == ' ' then i
      else
        var k := SplitPoint(s, i + 1, q);
        assert forall j :: i + 1 <= j <= k ==> QuoteState(s, i, j, quoted) == QuoteState(s, i + 1, j, q);
        k
  }

  // ---------------------------------------------------------------------
  // The splitting constructor `Command(const std::string& cmdline)`
  // ---------------------------------------------------------------------

  /** The constructor as written: leading spaces are skipped, the program
      runs up to the first space outside double quotes, and the arguments
      are everything from that space on, the space included. */
  function ParseAsWritten(s: string): RecogCommand
  {
    var lead := Lead(s);
    var k := SplitPoint(s, lead, false);
    RecogCommand(s[lead..k], s[k..])
  }

  /** As written, the arguments start with the separating space, there is
      no program exactly when the line is all spaces, and a program starts
      with a non-space. */
  lemma ParseAsWrittenShape(s: string)
    ensures var c := ParseAsWritten(s);
      && (c.param != [] ==> c.param[0] == ' ')
      && (c.exec == [] <==> forall i :: 0 <= i < |s| ==> s[i] == ' ')
      && (c.exec != [] ==> c.exec[0] != ' ')
  {
  }

  /** Program and arguments together are the command line without its
      leading spaces: nothing is lost or duplicated. */
  lemma ParseAsWrittenSplits(s: string)
    ensures ParseAsWritten(s).exec + ParseAsWritten(s).param == s[Lead(s)..]
  {
  }

  /** The constructor as evidently intended: the same program, with the
      separating space dropped from the arguments. */
  function Parse(s: string): RecogCommand
  {
    var lead := Lead(s);
    var k := SplitPoint(s, lead, false);
    RecogCommand(s[lead..k], if k < |s| then s[k + 1..] else [])
  }

  /** The corrected split differs from the written one only in the
      separator: the same program, the arguments without their leading
      space; and no program means no arguments. */
  lemma ParseDropsSeparator(s: string)
    ensures Parse(s).exec == ParseAsWritten(s).exec
    ensures ParseAsWritten(s).param == [] ==> Parse(s).param == []
    ensures ParseAsWritten(s).param != [] ==> ParseAsWritten(s).param == " " + Parse(s).param
    ensures Parse(s).exec == [] ==> Parse(s).param == []
  {
    var k := SplitPoint(s, Lead(s), false);
    assert k < |s| ==> s[k..] == " " + s[k + 1..];
  }

  /** The command line minus its leading spaces is the program alone, or
      program, one space, arguments. */
  lemma ParseRebuildsLine(s: string)
    ensures s[Lead(s)..] == Parse(s).exec || s[Lead(s)..] == Parse(s).exec + " " + Parse(s).param
  {
    ParseDropsSeparator(s);
    ParseAsWrittenSplits(s);
  }

  // ---------------------------------------------------------------------
  // Scanning lemmas
  // ---------------------------------------------------------------------

  lemma {:induction false} QuoteStateShift(p: string, t: string, i: nat, j: nat, quoted: bool)
    requires i <= j <= |t|
    ensures QuoteState(p + t, |p| + i, |p| + j, quoted) == QuoteState(t, i, j, quoted)
    decreases j - i
  {
    if i < j {
      assert (p + t)[|p| + i] == t[i];
      QuoteStateShift(p, t, i + 1, j, Toggle(quoted, t[i]));
    }
  }

  lemma {:induction false} QuoteStatePrefix(u: string, m: nat, i: nat, j: nat, quoted: bool)
    requires i <= j <= m <= |u|
    ensures QuoteState(u[..m], i, j, quoted) == QuoteState(u, i, j, quoted)
    decreases j - i
  {
    if i < j {
      QuoteStatePrefix(u, m, i + 1, j, Toggle(quoted, u[i]));
    }
  }

  /** Scanning the tail of `p + t` is scanning `t`. */
  lemma {:induction false} SplitPointShift(p: string, t: string, j: nat, quoted: bool)
    requires j <= |t|
    ensures SplitPoint(p + t, |p| + j, quoted) == |p| + SplitPoint(t, j, quoted)
    decreases |t| - j
  {
    if j < |t| {
      assert (p + t)[|p| + j] == t[j];
      var q := Toggle(quoted, t[j]);
      if !(!q && t[j] == ' ') {
        SplitPointShift(p, t, j + 1, q);
      }
    }
  }

  /** A scan that runs through all of `e` continues into whatever follows,
      carrying the quote flag it reached. */
  lemma {:induction false} SplitPointAppend(e: string, t: string, i: nat, quoted: bool)
    requires i <= |e| && SplitPoint(e, i, quoted) == |e|
    ensures SplitPoint(e + t, i, quoted) == |e| + SplitPoint(t, 0, QuoteState(e, i, |e|, quoted))
    decreases |e| - i
  {
    if i == |e| {
      SplitPointShift(e, t, 0, quoted);
    } else {
      assert (e + t)[i] == e[i];
      SplitPointAppend(e, t, i + 1, Toggle(quoted, e[i]));
    }
  }

  /** A scan that breaks at `m` breaks at the end of `u[..m]` too. */
  lemma {:induction false} SplitPointPrefix(u: string, m: nat, i: nat, quoted: bool)
    requires i <= m <= |u| && SplitPoint(u, i, quoted) == m
    ensures SplitPoint(u[..m], i, quoted) == m
    decreases m - i
  {
    if i < m {
      assert u[..m][i] == u[i];
      SplitPointPrefix(u, m, i + 1, Toggle(quoted, u[i]));
    }
  }

  // ---------------------------------------------------------------------
  // Round trip between the splitter and `cmdline()`
  // ---------------------------------------------------------------------

  /** A command the splitter gives back unchanged from its own command line:
      either wholly empty, or a program that starts with a non-space and
      holds no space outside double quotes, and that closes its quotes
      when arguments follow it. */
  predicate Reparsable(c: RecogCommand)
  {
    if c.exec == [] then c.param == []
    else
      && c.exec[0] != ' '
      && SplitPoint(c.exec, 0, false) == |c.exec|
      && (c.param != [] ==> !QuoteState(c.exec, 0, |c.exec|, false))
  }

  /** Splitting the command line of a reparsable command gives it back. */
  lemma {:induction false} ParseOfCmdline(c: RecogCommand)
    requires Reparsable(c)
    ensures Parse(Cmdline(c)) == c
  {
    var s := Cmdline(c);
    if c.exec != [] {
      assert Lead(s) == 0 by {
        assert s[0] == c.exec[0];
      }
      if c.param == [] {
        assert s == c.exec;
      } else {
        assert s == c.exec + (" " + c.param);
        SplitPointAppend(c.exec, " " + c.param, 0, false);
        assert SplitPoint(" " + c.param, 0, false) == 0;
      }
    }
  }

  /** As written, splitting the command line of a reparsable command gives
      back its program, and its arguments with one more space in front. */
  lemma {:induction false} ParseAsWrittenOfCmdline(c: RecogCommand)
    requires Reparsable(c)
    ensures ParseAsWritten(Cmdline(c)) == if c.param == [] then c else RecogCommand(c.exec, " " + c.param)
  {
    var s := Cmdline(c);
    ParseOfCmdline(c);
    ParseDropsSeparator(s);
    if c.exec != [] && c.param == [] {
      assert s == c.exec;
      assert Lead(s) == 0 by {
        assert s[0] == c.exec[0];
      }
      ParseAsWrittenSplits(s);
      assert |ParseAsWritten(s).param| == 0;
    }
  }

  /** A scan from the start of a string that does not start with a space
      gives a program that starts with a non-space, that the scan runs
      through completely, and that closes its quotes when the scan broke
      at a space. */
  lemma {:induction false} ScanFacts(u: string)
    requires u == [] || u[0] != ' '
    ensures var k := SplitPoint(u, 0, false);
      && (u[..k] != [] ==> u[..k][0] != ' ')
      && SplitPoint(u[..k], 0, false) == k
      && (k < |u| ==> !QuoteState(u[..k], 0, k, false))
  {
    var k := SplitPoint(u, 0, false);
    SplitPointPrefix(u, k, 0, false);
    if k < |u| {
      QuoteStatePrefix(u, k, 0, k, false);
    }
  }

  /** The splitter's program is what a scan of the command line without
      its leading spaces runs through. */
  lemma ParseIsScan(s: string)
    ensures var u := s[Lead(s)..];
      && SplitPoint(s, Lead(s), false) == Lead(s) + SplitPoint(u, 0, false)
      && Parse(s).exec == u[..SplitPoint(u, 0, false)]
  {
    var lead := Lead(s);
    var u := s[lead..];
    assert s == s[..lead] + u;
    SplitPointShift(s[..lead], u, 0, false);
  }

  /** What the splitter produces is reparsable: a program that starts with
      a non-space, that the scan runs through completely, and that closes
      its quotes when arguments follow. */
  lemma {:induction false} ParseFacts(s: string)
    ensures Reparsable(Parse(s))
  {
    var u := s[Lead(s)..];
    var k := SplitPoint(u, 0, false);
    ParseIsScan(s);
    ScanFacts(u);
    if Parse(s).exec == [] {
      assert u == [];
    } else if Parse(s).param != [] {
      assert k < |u|;
    }
  }

  /** When the written splitter leaves arguments, even a lone trailing
      space, the split program is not empty and closes its quotes. */
  lemma ParseClosesQuotes(s: string)
    requires ParseAsWritten(s).param != []
    ensures Parse(s).exec != [] && !QuoteState(Parse(s).exec, 0, |Parse(s).exec|, false)
  {
    var u := s[Lead(s)..];
    var k := SplitPoint(u, 0, false);
    ParseIsScan(s);
    ScanFacts(u);
    assert k < |u|;
  }

  /** The round trip in both directions: the splitter gives a command back
      from its own command line exactly when the command is reparsable. */
  lemma {:induction false} ParseCmdlineIff(c: RecogCommand)
    ensures Parse(Cmdline(c)) == c <==> Reparsable(c)
  {
    if Reparsable(c) {
      ParseOfCmdline(c);
    } else {
      ParseFacts(Cmdline(c));
    }
  }

  /** Re-splitting the command line of a split command changes nothing. */
  lemma {:induction false} ParseIdempotent(s: string)
    ensures Parse(Cmdline(Parse(s))) == Parse(s)
  {
    ParseFacts(s);
    ParseOfCmdline(Parse(s));
  }

  /** As written, every re-split of a command line with arguments adds one
      more space in front of the arguments. */
  lemma {:induction false} ParseAsWrittenReparseGrows(s: string)
    requires ParseAsWritten(s).param != []
    ensures ParseAsWritten(Cmdline(ParseAsWritten(s))) ==
            RecogCommand(ParseAsWritten(s).exec, " " + ParseAsWritten(s).param)
  {
    var c := Parse(s);
    ParseClosesQuotes(s);
    ParseFacts(s);
    ParseDropsSeparator(s);
    var grown := RecogCommand(c.exec, " " + c.param);
    assert ParseAsWritten(s) == grown;
    ParseOfCmdline(grown);
    ParseDropsSeparator(Cmdline(grown));
  }

  /** A concrete case: "prog arg" splits into "prog" and " arg", and
      splitting its command line again yields "  arg". */
  lemma ParseAsWrittenCounterexample()
    ensures ParseAsWritten("prog arg") == RecogCommand("prog", " arg")
    ensures ParseAsWritten(Cmdline(ParseAsWritten("prog arg"))) == RecogCommand("prog", "  arg")
  {
    var c := RecogCommand("prog", "arg");
    ProgIsOneWord();
    assert Cmdline(c) == "prog arg";
    ParseOfCmdline(c);
    ParseDropsSeparator("prog arg");
    assert ParseAsWritten("prog arg").param == " " + "arg";
    ParseAsWrittenReparseGrows("prog arg");
    OneMoreSpace();
  }

  lemma OneMoreSpace()
    ensures " " + " arg" == "  arg"
  {
    assert |" " + " arg"| == 5;
  }

  /** "prog" is a single word outside quotes. */
  lemma ProgIsOneWord()
    ensures Reparsable(RecogCommand("prog", "arg"))
  {
    var p := "prog";
    assert SplitPoint(p, 4, false) == 4;
    assert SplitPoint(p, 3, false) == 4;
    assert SplitPoint(p, 2, false) == 4;
    assert SplitPoint(p, 1, false) == 4;
    assert SplitPoint(p, 0, false) == 4;
    assert QuoteState(p, 3, 4, false) == false;
    assert QuoteState(p, 2, 4, false) == false;
    assert QuoteState(p, 1, 4, false) == false;
    assert QuoteState(p, 0, 4, false) == false;
  }

  // ---------------------------------------------------------------------
  // Equality
  // ---------------------------------------------------------------------

  /** `operator==`: program and arguments both equal. */
  predicate Eq(a: RecogCommand, b: RecogCommand)
  {
    a.exec == b.exec && a.param == b.param
  }

  /** `operator!=` as written: true only when BOTH fields differ. */
  predicate NeqAsWritten(a: RecogCommand, b: RecogCommand)
  {
    a.exec != b.exec && a.param != b.param
  }

  /** `operator!=` as evidently intended: the negation of `operator==`. */
  predicate Neq(a: RecogCommand, b: RecogCommand)
  {
    !Eq(a, b)
  }

  /** The written `!=` implies `!(a == b)`, but not conversely: two commands
      with the same program and different arguments are neither `==` nor
      `!=`. */
  lemma NeqAsWrittenIsNotNegation()
    ensures forall a, b :: NeqAsWritten(a, b) ==> !Eq(a, b)
    ensures var a := RecogCommand("notepad.exe", "a.txt");
            var b := RecogCommand("notepad.exe", "b.txt");
            !Eq(a, b) && !NeqAsWritten(a, b)
  {
    assert "a.txt"[0] != "b.txt"[0];
  }

  /** The corrected `!=` is the exact negation of `==`, and `==` is value
      equality. */
  lemma NeqIsNegation(a: RecogCommand, b: RecogCommand)
    ensures Neq(a, b) <==> !Eq(a, b)
    ensures Eq(a, b) <==> a == b
  {
  }
}

=== FILE: util.dfy ===
/** The string helpers of Util.h: space trimming and case-insensitive
    character comparison. */
module Util {
  import opened Wrappers

  /** A run of `n` space characters. */
  function Spaces(n: nat): (r: string)
    ensures |r| == n
    ensures forall i :: 0 <= i < n ==> r[i] == ' '
  {
    seq(n, _ => ' ')
  }

  /** `find_first_not_of(L' ')` started at position `i`. */
  function FirstNotSpaceFrom(s: string, i: nat): (r: Option<nat>)
    requires i <= |s|
    ensures r.None? <==> forall j :: i <= j < |s| ==> s[j] == ' '
    ensures r.Some? ==> i <= r.value < |s| && s[r.value] != ' '
    ensures r.Some? ==> forall j :: i <= j < r.value ==> s[j] == ' '
    decreases |s| - i
  {
    if i == |s| then None
    else if s[i] != ' ' then Some(i)
    else FirstNotSpaceFrom(s, i + 1)
  }

  /** `find_first_not_of(L' ')`: None plays the part of `npos`. */
  function FindFirstNotSpace(s: string): (r: Option<nat>)
    ensures r.None? <==> forall j :: 0 <= j < |s| ==> s[j] == ' '
    ensures r.Some? ==> r.value < |s| && s[r.value] != ' '
    ensures r.Some? ==> forall j :: 0 <= j < r.value ==> s[j] == ' '
  {
    FirstNotSpaceFrom(s, 0)
  }

  /** `find_last_not_of(L' ')` restricted to the prefix `s[..n]`. */
  function LastNotSpaceBelow(s: string, n: nat): (r: Option<nat>)
    requires n <= |s|
    ensures r.None? <==> forall j :: 0 <= j < n ==> s[j] == ' '
    ensures r.Some? ==> r.value < n && s[r.value] != ' '
    ensures r.Some? ==> forall j :: r.value < j < n ==> s[j] == ' '
  {
    if n == 0 then None
    else if s[n - 1] != ' ' then Some(n - 1)
    else LastNotSpaceBelow(s, n - 1)
  }

  /** `find_last_not_of(L' ')`. */
  function FindLastNotSpace(s: string): (r: Option<nat>)
    ensures r.None? <==> forall j :: 0 <= j < |s| ==> s[j] == ' '
    ensures r.Some? ==> r.value < |s| && s[r.value] != ' '
    ensures r.Some? ==> forall j :: r.value < j < |s| ==> s[j] == ' '
  {
    LastNotSpaceBelow(s, |s|)
  }

  /** `trim_whitespace`: drops leading and trailing ' ' characters, and only
      those; the result is the input with a run of spaces removed from each
      end, and it neither starts nor ends with a space. */
  function TrimWhitespace(s: string): (r: string)
    ensures (forall i :: 0 <= i < |s| ==> s[i] == ' ') <==> r == []
    ensures r != [] ==> r[0] != ' ' && r[|r| - 1] != ' '
    ensures exists a: nat, b: nat :: a + |r| + b == |s| && s == Spaces(a) + r + Spaces(b)
  {
    match FindFirstNotSpace(s)
    case None =>
      assert s == Spaces(|s|) + [] + Spaces(0);
      []
    case Some(first) =>
      var last := FindLastNotSpace(s).value;
      var r := s[first..last + 1];
      assert s == Spaces(first) + r + Spaces(|s| - last - 1);
      r
  }

  /** A string that neither starts nor ends with a space is its own trim. */
  lemma TrimOfTrimmed(s: string)
    requires s == [] || (s[0] != ' ' && s[|s| - 1] != ' ')
    ensures TrimWhitespace(s) == s
  {
    if s != [] {
      assert FindFirstNotSpace(s) == Some(0);
      assert FindLastNotSpace(s) == Some(|s| - 1);
    }
  }

  /** Trimming is idempotent. */
  lemma {:induction false} TrimIdempotent(s: string)
    ensures TrimWhitespace(TrimWhitespace(s)) == TrimWhitespace(s)
  {
    TrimOfTrimmed(TrimWhitespace(s));
  }

  /** Only the space character is removed: every other character (a tab,
      a newline, ...) occurs in the trimmed result exactly as often as in
      the input. */
  lemma {:induction false} TrimKeepsNonSpaces(s: string, c: char)
    requires c != ' '
    ensures multiset(TrimWhitespace(s))[c] == multiset(s)[c]
  {
    var r := TrimWhitespace(s);
    var a: nat, b: nat :| a + |r| + b == |s| && s == Spaces(a) + r + Spaces(b);
    assert c !in Spaces(a) && c !in Spaces(b);
    assert multiset(s) == multiset(Spaces(a)) + multiset(r) + multiset(Spaces(b));
  }

  /** ASCII lower-casing, the "C" locale behaviour of `std::tolower`. */
  function Lower(c: char): (r: char)
    ensures !('A' <= r <= 'Z')
    ensures r == c || ('A' <= c <= 'Z' && r as int == c as int + 32)
  {
    if 'A' <= c <= 'Z' then (c as int + 32) as char else c
  }

  /** `icase_cmp_wchar`: two characters are equal once lower-cased. */
  predicate IcaseCmpWchar(a: char, b: char)
  {
    Lower(a) == Lower(b)
  }

  /** `icase_cmp_wchar` is an equivalence: reflexive, symmetric, transitive. */
  lemma IcaseCmpIsEquivalence(a: char, b: char, c: char)
    ensures IcaseCmpWchar(a, a)
    ensures IcaseCmpWchar(a, b) <==> IcaseCmpWchar(b, a)
    ensures IcaseCmpWchar(a, b) && IcaseCmpWchar(b, c) ==> IcaseCmpWchar(a, c)
  {
  }

  /** Letters of either case match each other, and nothing else does:
      `icase_cmp_wchar(a, b)` differs from `a == b` exactly on case pairs. */
  lemma IcaseCmpCharacterised(a: char, b: char)
    ensures IcaseCmpWchar(a, b) <==>
      a == b || (a as int == b as int + 32 && 'A' <= b <= 'Z') || (b as int == a as int + 32 && 'A' <= a <= 'Z')
  {
  }

  /** The phrase comparison the command group uses: equal sizes and
      `std::equal` under `icase_cmp_wchar`. */
  predicate EqualIgnoringCase(a: string, b: string)
  {
    |a| == |b| && forall i :: 0 <= i < |a| ==> IcaseCmpWchar(a[i], b[i])
  }

  /** Phrase comparison ignoring case is an equivalence relation. */
  lemma EqualIgnoringCaseIsEquivalence(a: string, b: string, c: string)
    ensures EqualIgnoringCase(a, a)
    ensures EqualIgnoringCase(a, b) <==> EqualIgnoringCase(b, a)
    ensures EqualIgnoringCase(a, b) && EqualIgnoringCase(b, c) ==> EqualIgnoringCase(a, c)
  {
  }
}

=== FILE: wrappers.dfy ===
/** Failure-compatible wrappers shared by the rest of the model. */
module Wrappers {

  /** A value that may be absent: `std::wstring::npos`, a missing map key,
      a command that was not launched. */
  datatype Option<+T> = None | Some(value: T)

  /** Either a constructed value or the reason construction threw. */
  datatype Result<+T, +E> = Success(value: T) | Failure(error: E)
}
